=== FILE: README.md ===
# Shared-space membership and replication, modelled in Dafny

This project models the core of an A-Frame "shared space" component.

- **Membership.** Peers in a fully meshed WebRTC room agree on an ordered guest list. They elect a host and report participants entering and leaving.
- **Replication.** An entity observer and a scene tree carry component values from one peer's scene to the others.

Every part is a pure function over immutable values. The modules follow the source files:

| module | file | models |
|---|---|---|
| `Base`, `Json` | base.dfy, json.dfy | `Option` (`null`/`undefined`), `Result` (a thrown exception), and JSON values with JavaScript truthiness |
| `GuestLists` | guest_list.dfy | `GuestList`: timestamp plus slots of participant ids, tombstoned in place (`None` is `null`) |
| `Rtc` | rtc_interface.dfy | `RTCInterface`: the peer map, sender stamping, broadcast fan-out and inbound framing checks |
| `Participation` | participation.dfy | `Participation`: one state record, one function per handler, and `Step`, which runs one macrotask |
| `ParticipationProperties` | participation_properties.dfy | role transitions, negotiation, change reporting, connect/close effects, message round trips |
| `DeferredEnters` | deferred_enters.dfy | enter announcements wait until the participant is reachable |
| `EntityObservers` | entity_observer.dfy | `EntityObserver`: the per-entity cache, filters, key-frame counter and `check` |
| `SceneTrees` | scene_tree.dfy | `SceneTree`: applying batches of component updates to element attributes |

Promise continuations are explicit in the model:

- `jobs` is the microtask queue. `Drain` empties it after every handler.
- `connectionWaiters` and `presenceWaiters` hold continuations that wait until an id connects or becomes present.
- The heartbeat timer is a flag. A `HeartbeatTick` input rebroadcasts the list while the flag is set.
- A thrown exception is a `Failure`. Its cases are:
  - equal costs during negotiation;
  - a malformed list payload;
  - a message type naming a transport handler;
  - a framing panic.

## Behaviour of the code worth knowing

- **`computeChanges` and falsy slots.** It reports an exit for every old index whose target slot is falsy, including a slot that was already a tombstone. So comparing a list that holds a tombstone with itself yields an exit with id `null`, and "no changes iff equal lists" does not hold (`GuestLists.TombstoneReportedAsExitAgain`). Past the old length it reports an enter for every index, tombstones included.
- **Enters after negotiation.** Resolving negotiation clears the local list before installing the winner. Every slot of the winner is then reported as an enter, so the resolution step emits enters (`ParticipationProperties.NegotiationOutcome`).
- **`position` of an absent id.** It is `indexOf + 1`, which is 0 (`GuestLists.Position`).
- **What waits on what.** An enter announcement waits only for the connection. Only a stream announcement waits for presence.
- **Key frames.** A key frame repeats only the cached values that are truthy. It neither compares nor refreshes the cache.
- **The key-frame counter.** It advances once per observed entity on each `check`, since `_isKey()` is called inside the per-entity loop.

## Model

| member | source | states |
|---|---|---|
| `GuestLists.IndexOf` | src/components/sharedspace/participation/guest-list.js:92-94 | the first index holding the value, with no earlier occurrence; -1 exactly when no slot holds it |
| `GuestLists.Add` | src/components/sharedspace/participation/guest-list.js:8-12 | an absent id is appended at the end; a present id leaves the list unchanged; the id is present afterwards |
| `GuestLists.AddKeepsIdsDistinct` | src/components/sharedspace/participation/guest-list.js:8-12 | `add` never creates a duplicate id, and adding twice is adding once |
| `GuestLists.Remove` | src/components/sharedspace/participation/guest-list.js:14-17 | only the first slot holding the id becomes a tombstone; length, timestamp and all other slots are kept; an absent id changes nothing; with distinct ids the id is gone afterwards |
| `GuestLists.EqualsIsEquality` | src/components/sharedspace/participation/guest-list.js:23-31 | `equals` (timestamp plus slot-by-slot strict comparison) holds exactly for identical lists; it is reflexive and symmetric |
| `GuestLists.HostOf` | src/components/sharedspace/participation/guest-list.js:33-39 | `undefined` exactly when no slot is truthy; otherwise a truthy slot with only falsy slots before it |
| `GuestLists.NextHostIsNextOccupied` | src/components/sharedspace/participation/guest-list.js:75-82 | `nextHost()` is the first truthy slot after the host's index; nothing when there is none |
| `GuestLists.RemoveHostYieldsNextHost` | src/components/sharedspace/participation/guest-list.js:75-82 | after `remove(host())` the new host is the old `nextHost()` |
| `GuestLists.Position` | src/components/sharedspace/participation/guest-list.js:88-90 | the 1-based index of the first slot holding the id; 0 exactly when absent |
| `GuestLists.GetRole` | src/components/sharedspace/participation/guest-list.js:96-103 | `unknown` exactly when absent; `host` exactly when present and equal to `host()`; `guest` otherwise |
| `GuestLists.SerializeRoundTrip` | src/components/sharedspace/participation/guest-list.js:109-115 | deserialising a serialised list gives the same list back, and it `equals` the original |
| `GuestLists.Copy` | src/components/sharedspace/participation/guest-list.js:121-123 | a copy equals the original |
| `GuestLists.CostAntisymmetric` | src/components/sharedspace/participation/guest-list.js:117-119 | the reverse transformation costs the negated amount; the two costs are equal only for equal timestamps |
| `GuestLists.ExitsCharacterised` | src/components/sharedspace/participation/guest-list.js:50-60 | exit records are exactly one per old index whose target slot is falsy, in increasing position order; each carries the old slot value, its role in the old list and its 1-based position |
| `GuestLists.ComputeChangesShape` | src/components/sharedspace/participation/guest-list.js:46-73 | the changes are the exits followed by one enter per target index past the old length |
| `GuestLists.EntersIsEntersFrom` | src/components/sharedspace/participation/guest-list.js:61-71 | the enter loop yields, per index from the old length on, the target's slot, its role in the target and its 1-based position |
| `GuestLists.ChangesFromEmptyAreAllEnters` | src/components/sharedspace/participation/guest-list.js:61-71 | against an empty list, every target slot, tombstones included, is an enter at its position |
| `GuestLists.SameOccupiedSlotsNoChanges` | src/components/sharedspace/participation/guest-list.js:46-73 | lists with the same truthy slots produce no changes, whatever their timestamps |
| `GuestLists.TombstoneReportedAsExitAgain` | src/components/sharedspace/participation/guest-list.js:50-59 | a slot that is a tombstone in both lists is reported as an exit with a null id |
| `Rtc.Me` | src/components/sharedspace/rtc-interface.js:19-21 | `me` is undefined exactly before `connect()` |
| `Rtc.Connect` | src/components/sharedspace/rtc-interface.js:23-37 | an empty peer map; the identity is the configured id when it is truthy, and the generated one when it is missing or empty |
| `Rtc.Send` | src/components/sharedspace/rtc-interface.js:43-49 | one frame, stamped with `from = me`, to a connected destination; nothing otherwise |
| `Rtc.Broadcast` | src/components/sharedspace/rtc-interface.js:39-41 | one stamped frame per peer, in peer-map order; none without peers |
| `Rtc.OnPeer` | src/components/sharedspace/rtc-interface.js:55-59 | the peer is connected, `connect{id}` is raised, other peers are unaffected, and keys stay distinct |
| `Rtc.OnClose` | src/components/sharedspace/rtc-interface.js:90-93 | the peer is no longer connected, `close{id}` is raised, and other peers are unaffected |
| `Rtc.OnData` | src/components/sharedspace/rtc-interface.js:73-88 | the data is passed on unchanged exactly when it parses to an object with a truthy `type`; non-JSON text, other values and `null` abort |
| `Rtc.ConnectedBetweenPeerAndClose` | src/components/sharedspace/rtc-interface.js:51-53 | after any sequence of peer and close events, `isConnected(id)` holds exactly when the last event for the id was a peer event, or there was none and it held before |
| `Rtc.LinksKeepPeersDistinct` | src/components/sharedspace/rtc-interface.js:55-59 | the peer map never holds a key twice |
| `Participation.Connect` | src/components/sharedspace/participation/index.js:70-81 | role `unknown`, no heartbeat, the list `[me]` stamped with the entry time, and a `connected` event |
| `Participation.Send` | src/components/sharedspace/participation/index.js:95-103 | `*` broadcasts the content message; any other target sends it to that peer; nothing else changes |
| `Participation.OnStream` | src/components/sharedspace/participation/index.js:120-131 | the stream is appended to the id's streams; its announcement is queued when the id is `me` or present in a settled list, and parked on the presence queue otherwise |
| `Participation.SetRole` | src/components/sharedspace/participation/index.js:206-214 | an actual change records the role and emits `upgrade`; only a change to `host` starts the heartbeat; no change does nothing |
| `Participation.SelectList` | src/components/sharedspace/participation/index.js:228-240 | equal costs abort; otherwise the list with the strictly older timestamp |
| `Participation.UpdateList` | src/components/sharedspace/participation/index.js:242-248 | the new list is installed; while negotiating nothing is reported |
| `ParticipationProperties.UpdateListReports` | src/components/sharedspace/participation/index.js:242-248 | once the role is settled, the next list is installed and its differences from the old list are reported: one record per change, exits emitted, enters queued or parked by reachability, nothing else |
| `Participation.WaitForConnection` | src/components/sharedspace/participation/index.js:272-280 | a job for `me` or a connected id is queued now; any other job is parked |
| `Participation.ConfirmWaiting` | src/components/sharedspace/participation/index.js:282-293 | the shift-and-push-back scan releases the waiters for the target in queue order and keeps the others in queue order |
| `Participation.ReleaseMembers` | src/components/sharedspace/participation/index.js:305-316 | every waiter for the target is released; exactly the others are kept |
| `Participation.OnContent` | src/components/sharedspace/participation/index.js:200-204 | one `participantmessage` event with the sender and the payload |
| `Participation.OnMessage` | src/components/sharedspace/participation/index.js:324-331 | `_on${type}` dispatches on the text of the type, whatever JSON value it is: `list` and `content` reach their handlers, a transport handler name stops, and any other text leaves the state unchanged; only `list` or a transport handler name can fail |
| `ParticipationProperties.WrappedTypeDispatches` | src/components/sharedspace/participation/index.js:324-331 | a type given as an array holding just a string, at any depth, reaches the same handler as the string itself |
| `ParticipationProperties.ScalarTypesDropped` | src/components/sharedspace/participation/index.js:324-331 | a number, boolean, object or `null` as the type names no handler, so the message is dropped and the state is unchanged |
| `Participation.Heartbeat` | src/components/sharedspace/participation/index.js:216-221 | a tick sends the list to every peer while the timer runs and sends nothing otherwise; role, list, events and queues are unchanged |
| `ParticipationProperties.ConnectWithoutHeartbeat` | src/components/sharedspace/participation/index.js:206-221 | a freshly connected peer has no role and no running timer, so a tick sends nothing |
| `ParticipationProperties.StepKeepsHeartbeatWhileHost` | src/components/sharedspace/participation/index.js:206-221 | every step keeps the timer running exactly while this peer is the host |
| `ParticipationProperties.HeartbeatTickWhileHost` | src/components/sharedspace/participation/index.js:216-221 | under that invariant, a tick rebroadcasts the list exactly when this peer is the host, and leaves the state unchanged otherwise |
| `ParticipationProperties.InformChangesEffect` | src/components/sharedspace/participation/index.js:257-270 | each exit is emitted at once; each enter is queued if reachable, parked otherwise; one record per change and nothing else |
| `ParticipationProperties.RoleTransitions` | src/components/sharedspace/participation/index.js:146-214 | no step returns to `unknown`, demotes a host, or makes a guest out of a host; the heartbeat runs exactly when it already ran or the peer just became host |
| `ParticipationProperties.IgnoredLists` | src/components/sharedspace/participation/index.js:173-180 | a settled peer ignores lists not sent by its host, and every peer ignores a list identical to its own |
| `ParticipationProperties.IgnoredListStep` | src/components/sharedspace/participation/index.js:170-180 | a whole step that receives such a list leaves the state unchanged |
| `ParticipationProperties.HostListAdopted` | src/components/sharedspace/participation/index.js:179-198 | a settled peer installs a differing host list, keeps its role and reports the differences |
| `ParticipationProperties.NegotiationOutcome` | src/components/sharedspace/participation/index.js:181-198 | equal timestamps abort; otherwise the older list wins, the peer becomes host iff its own list won, `upgrade` is emitted, and every slot of the winner is reported as an enter |
| `ParticipationProperties.OnConnectEffect` | src/components/sharedspace/participation/index.js:109-118 | a non-guest adds the id and broadcasts; a guest sends nothing; every connection waiter for the id is released and the others stay in order |
| `ParticipationProperties.OnCloseEffect` | src/components/sharedspace/participation/index.js:133-164 | a host tombstones the leaver and broadcasts; a guest tombstones only a leaving host, becomes host iff it was next and is then the new host; a negotiating peer only rebroadcasts |
| `ParticipationProperties.ListMessageRoundTrip` | src/components/sharedspace/participation/index.js:339-343 | every list frame passes the receiver's framing check as a `list` from the sender and decodes to the sender's list |
| `ParticipationProperties.ContentRoundTrip` | src/components/sharedspace/participation/index.js:200-204 | sent content reaches the receiver as one `participantmessage` naming the sender, with the payload unchanged |
| `DeferredEnters.InformChangesHandsOver` | src/components/sharedspace/participation/index.js:257-280 | reporting changes emits no enter directly; queued enters are reachable; parked enters wait for their own id |
| `DeferredEnters.DrainEntersReachable` | src/components/sharedspace/participation/index.js:259-264 | the microtask checkpoint only appends events, emits enters only for reachable ids, and keeps every waiter waiting for its own id |
| `Participation.RunJob` | src/components/sharedspace/participation/index.js:259-264 | an enter continuation emits `enterparticipant` and then releases, in queue order, every presence waiter for that id; a stream continuation emits `participantstream` and releases nothing |
| `DeferredEnters.DrainReleasesPresence` | src/components/sharedspace/participation/index.js:259-264 | the microtask checkpoint only removes presence waiters, and none is left for an id whose enter it announced |
| `DeferredEnters.StepReleasesPresence` | src/components/sharedspace/participation/index.js:259-264 | after any step from a settled peer, no presence waiter is left for an id whose enter the step announced |
| `DeferredEnters.StepDefersEnters` | src/components/sharedspace/participation/index.js:250-280 | from a settled peer, a step ends settled, only appends events, and every enter it emits names `me` or a connected peer |
| `EntityObservers.NewObserver` | src/components/avatars/entity-observer.js:16-22 | `keyEach` defaults to 60; the counter starts at 0 with nothing observed |
| `EntityObservers.KeyPeriodicity` | src/components/avatars/entity-observer.js:49-56 | below a positive threshold, tick `i` is a key tick iff `count + i + 1` is a multiple of the threshold; the counter wraps modulo the threshold |
| `EntityObservers.NeverKey` | src/components/avatars/entity-observer.js:49-56 | a counter at or above the threshold only grows and never gives a key tick |
| `EntityObservers.CacheContents` | src/components/avatars/entity-observer.js:58-72 | with distinct names, the recorded cache holds the value of each selected component, and no other name changes |
| `EntityObservers.CacheLastWins` | src/components/avatars/entity-observer.js:58-72 | for every name, the recorded cache holds the value of the last selected component with that name, because later instances overwrite earlier ones; a name no selected component has keeps its old value |
| `EntityObservers.Observe` | src/components/avatars/entity-observer.js:24-33 | with `components`, the entity's entry is replaced by a fresh cache and filter and moves last; without it nothing changes |
| `EntityObservers.Disconnect` | src/components/avatars/entity-observer.js:35-38 | every entry is forgotten; counter and threshold are kept |
| `EntityObservers.DisconnectSilences` | src/components/avatars/entity-observer.js:35-38 | a later check reports nothing and changes nothing |
| `EntityObservers.Collect` | src/components/avatars/entity-observer.js:82-107 | every record has the tick's key flag, the entity as target and a selected component; a key tick leaves the cache alone |
| `EntityObservers.KeyTick` | src/components/avatars/entity-observer.js:88-100 | a key tick repeats every selected truthy cached value as `oldValue = newValue`, and nothing else |
| `EntityObservers.ChangeTick` | src/components/avatars/entity-observer.js:109-117 | a non-key tick reports exactly the selected components whose value differs from the cache, with old and new values, and caches the current values |
| `EntityObservers.QuietIffUnchanged` | src/components/avatars/entity-observer.js:104-117 | a non-key tick is silent exactly when every selected component has its cached value, including components that share a name |
| `EntityObservers.ObserveThenQuiet` | src/components/avatars/entity-observer.js:58-72 | right after `observe`, a non-key check of unchanged components reports nothing |
| `EntityObservers.SharedNameReportedEveryTick` | src/components/avatars/entity-observer.js:67-72 | two components sharing a name overwrite each other in the cache and are both reported on every non-key tick |
| `EntityObservers.CheckShape` | src/components/avatars/entity-observer.js:44-47 | entities and filters are kept in place, the counter ticks once per entity, and every batch is non-empty and about one observed entity |
| `EntityObservers.CheckInOrder` | src/components/avatars/entity-observer.js:44-47 | the `forEach` loop computes the same observer and batches as `Check` |
| `EntityObservers.CheckOncePerEntity` | src/components/avatars/entity-observer.js:104-106 | the callback runs at most once per entity per check, never with an empty batch |
| `EntityObservers.CheckTicks` | src/components/avatars/entity-observer.js:44-56 | each entity's records carry the key flag of that entity's tick in the iteration |
| `EntityObservers.SingleEntityKeyFrames` | src/components/avatars/entity-observer.js:49-56 | with one observed entity, check `n` reports key records iff `count + n + 1` is a multiple of `keyEach` |
| `SceneTrees.HandledKinds` | src/components/participants/scene-tree.js:21-29 | only `components` and `Components` reach a handler |
| `SceneTrees.SetAttribute` | src/components/participants/scene-tree.js:40-40 | the named attribute of the element gets the value; no other attribute changes |
| `SceneTrees.ApplyUpdate` | src/components/participants/scene-tree.js:21-41 | throws exactly when the kind has no handler, `querySelector` rejects the selector, or the matched element's `setAttribute` rejects the attribute name; a selector that matches nothing changes nothing; otherwise only the named attribute of the matched element changes |
| `SceneTrees.ApplyAll` | src/components/participants/scene-tree.js:18-18 | completes exactly when every update is accepted (a handler exists, the selector parses, and a matched element accepts the name); otherwise it stops at the first update that is not |
| `SceneTrees.OneIsBatchOfOne` | src/components/participants/scene-tree.js:14-17 | a single update is applied as a batch of one |
| `SceneTrees.ApplyInOrder` | src/components/participants/scene-tree.js:18-18 | a batch `a + b` applies `a`, then `b` on the result unless `a` threw |
| `SceneTrees.ThrowKeepsEarlier` | src/components/participants/scene-tree.js:18-28 | on a throw, the updates before the thrower stay applied and the later ones are not applied |
| `SceneTrees.RejectedNameStopsBatch` | src/components/participants/scene-tree.js:18-41 | a components update on a matched element with a name `setAttribute` rejects throws before changing anything, and nothing after it in the batch is applied |
| `SceneTrees.LastWriterWins` | src/components/participants/scene-tree.js:14-41 | after a completed batch, each attribute holds the last value written to it, or its old value if nothing wrote it |

## Left out

- The `MutationObserver` half of the entity observer (`observe`'s delegation, `disconnect`'s call, `takeRecords`). It is a browser API; the observer's own cache is modelled.
- A-Frame schema stringification (`_stringify`). Components arrive already serialised, so two values are equal exactly when their strings are.
- The cache is a plain object, so a component named like an `Object.prototype` member (`toString`) reads an inherited value. The model's cache has no inherited keys.
- SceneTrees.HandledKinds: `toUpperCase` is modelled for ASCII letters only. Every other character is kept as it is.
- `querySelector` and the attribute-name check of `setAttribute` are parameters (`Dom`). The selector finds an element, finds none, or is rejected. A name is accepted or rejected, as a name that is not an XML Name is. The element tree is only a map of attributes. The `Dom` is fixed for a whole batch, so an attribute written earlier in the batch cannot change what a later selector matches.
- SceneTrees.ApplyUpdate: an exception raised by A-Frame component code while `setAttribute` updates a component is not modelled. The "throws exactly when" of its contract, and of `SceneTrees.ApplyAll`'s, covers the handler, the selector and the attribute name only.
- JSON numbers are integers. Timestamps are `Date.now()` values, so no fractions arise.
- Rtc.OnData takes the parse result as input; the JSON text itself and `JSON.parse` are not modelled.
- A message whose `type` names one of the transport handlers (`Connect`, `Stream`, `Close`, `Message`). In the source that handler runs on the message's `detail`: a forged connect, stream or close, or a nested message dispatched again. A message without `detail` throws a `TypeError`. The model stops with `Unmodelled` in both cases.
- A list message without a numeric `timestamp` and an array of strings and nulls stops with `MalformedList`. The source would carry on with such values.
- The state after a thrown exception is not modelled. A `Failure` ends the step.
- Timers and randomness. The random delay before `connect()` is left out. The 3-second heartbeat is a flag plus a `HeartbeatTick` input. `Date.now()` and the swarm's generated id are parameters.
- Media: stream objects are opaque numbers, and media acquisition is outside the core.
- The consumer's event listeners and the entity observer's callback are not run. Events and batches are recorded as values.
- `window.list` (a global alias kept for debugging) and the `log`/`warn` output.
- EntityObservers.CacheContents: stated for distinct names only. `CacheLastWins` gives the general case, where the last instance with a name wins.
- EntityObservers.ChangeTick: characterised only for components with distinct names. Shared names are shown separately by `SharedNameReportedEveryTick`.
- The A-Frame components that wire these classes into a scene, and the older files under `js/`, are not part of this model.

=== FILE: base.dfy ===
/** Small value wrappers shared by every module of the model. */
module Base {

  /** An optional value: `None` stands for JavaScript's `null`/`undefined`. */
  datatype Option<+T> = None | Some(value: T)

  /** The outcome of a step that may throw: `Failure` carries why it stopped. */
  datatype Result<+T, +E> = Success(value: T) | Failure(error: E)

  /** True when no element occurs twice in `s`. */
  predicate Distinct<T(==)>(s: seq<T>) {
    forall i, j :: 0 <= i < j < |s| ==> s[i] != s[j]
  }
}

=== FILE: deferred_enters.dfy ===
/**
 * The announcement of an entering participant is deferred: a peer whose
 * microtask queue has run dry, and whose parked waiters are the ones the
 * handlers create, only ever emits `participantenter` for an id that is
 * its own or connected, and it comes out of every step in that same
 * settled shape.
 */
module DeferredEnters {
  import opened Base
  import opened Json
  import opened GuestLists
  import opened Participation
  import opened ParticipationProperties
  import Rtc

  /** Every queued enter announcement is for a reachable id. */
  predicate JobsReady(s: State) {
    forall j :: j in s.jobs && j.AnnounceEnter? ==> Reachable(s, j.id)
  }

  /**
   * Connection waiters hold the enter announcement for their own id;
   * presence waiters hold the stream announcement for their own peer.
   */
  predicate WaitersWellFormed(s: State) {
    && (forall w :: w in s.connectionWaiters ==> w.job.AnnounceEnter? && w.job.id == w.id)
    && (forall w :: w in s.presenceWaiters ==> w.job.AnnounceStream? && w.id == Some(w.job.peer))
  }

  /** Between two macrotasks: nothing queued, waiters as the handlers create them. */
  predicate Settled(s: State) {
    s.jobs == [] && WaitersWellFormed(s)
  }

  /** No enter announcement was emitted between `s` and `r`. */
  predicate NoNewEnters(s: State, r: State) {
    forall k :: |s.events| <= k < |r.events| ==> !r.events[k].EnterParticipant?
  }

  /** Every enter announcement emitted between `s` and `r` names an id reachable in `r`. */
  predicate EntersReachable(s: State, r: State) {
    forall k :: |s.events| <= k < |r.events| && r.events[k].EnterParticipant? ==> Reachable(r, r.events[k].id)
  }

  /** What a handler leaves behind for the microtask checkpoint. */
  predicate HandedOver(s: State, r: State) {
    s.events <= r.events && NoNewEnters(s, r) && JobsReady(r) && WaitersWellFormed(r)
  }

  /** Every released job was the job of a waiter for the target. */
  lemma {:induction false} ReleasedFrom(q: seq<Waiter>, target: Option<string>)
    ensures forall j :: j in Release(q, target).0 ==> exists w :: w in q && w.id == target && w.job == j
  {
    if |q| > 0 {
      ReleasedFrom(q[1..], target);
      forall j | j in Release(q, target).0 ensures exists w :: w in q && w.id == target && w.job == j {
        if q[0].id == target && j == q[0].job {
          assert q[0] in q;
        } else {
          assert j in Release(q[1..], target).0;
          var w :| w in q[1..] && w.id == target && w.job == j;
          assert w in q;
        }
      }
    }
  }

  lemma HandedOverTransitive(a: State, b: State, c: State)
    requires HandedOver(a, b) && HandedOver(b, c)
    ensures HandedOver(a, c)
  {
    forall k | |a.events| <= k < |c.events| ensures !c.events[k].EnterParticipant? {
      if k < |b.events| {
        assert c.events[k] == b.events[k];
      }
    }
  }

  /** Reporting change records hands over announcements in the required shape. */
  lemma InformChangesHandsOver(s: State, changes: seq<Change>)
    requires JobsReady(s) && WaitersWellFormed(s)
    ensures HandedOver(s, InformChanges(s, changes))
  {
    var r := InformChanges(s, changes);
    InformChangesEffect(s, changes);
    forall k | |s.events| <= k < |r.events| ensures !r.events[k].EnterParticipant? {
      assert ExitReported(changes, r.events[k]);
    }
    forall j | j in r.jobs && j.AnnounceEnter? ensures Reachable(r, j.id) {
      var k :| 0 <= k < |r.jobs| && r.jobs[k] == j;
      if k < |s.jobs| {
        assert s.jobs[k] == j;
      } else {
        assert EnterQueued(s, changes, r.jobs[k]);
      }
    }
    forall w | w in r.connectionWaiters ensures w.job.AnnounceEnter? && w.job.id == w.id {
      var k :| 0 <= k < |r.connectionWaiters| && r.connectionWaiters[k] == w;
      if k < |s.connectionWaiters| {
        assert s.connectionWaiters[k] == w;
      } else {
        assert EnterParked(s, changes, r.connectionWaiters[k]);
      }
    }
  }

  lemma UpdateListHandsOver(s: State, next: GuestList)
    requires JobsReady(s) && WaitersWellFormed(s)
    ensures HandedOver(s, UpdateList(s, next))
  {
    if !Negotiating(s) {
      InformChangesHandsOver(s.(list := next), ComputeChanges(s.list, next));
    }
  }

  lemma SetRoleHandsOver(s: State, role: Role)
    requires JobsReady(s) && WaitersWellFormed(s)
    ensures HandedOver(s, SetRole(s, role))
  {
  }

  /**
   * Releasing the connection waiters of a connected id queues only
   * announcements for that id.
   */
  lemma ConfirmConnectionHandsOver(s: State, id: string)
    requires JobsReady(s) && WaitersWellFormed(s) && Rtc.IsConnected(s.transport, id)
    ensures HandedOver(s, ConfirmConnection(s, id))
  {
    var r := ConfirmConnection(s, id);
    ReleasedFrom(s.connectionWaiters, Some(id));
    ReleaseMembers(s.connectionWaiters, Some(id));
    forall j | j in r.jobs && j.AnnounceEnter? ensures Reachable(r, j.id) {
      if j !in s.jobs {
        assert j in Release(s.connectionWaiters, Some(id)).0;
      }
    }
  }

  lemma OnConnectHandsOver(s: State, id: string)
    requires Settled(s) && Rtc.IsConnected(s.transport, id)
    ensures HandedOver(s, OnConnect(s, id))
  {
    var s1 := if s.role != Guest then BroadcastList(UpdateList(s, Add(Copy(s.list), id))) else s;
    if s.role != Guest {
      UpdateListHandsOver(s, Add(Copy(s.list), id));
    }
    assert HandedOver(s, s1);
    ConfirmConnectionHandsOver(s1, id);
    HandedOverTransitive(s, s1, OnConnect(s, id));
  }

  lemma OnCloseHandsOver(s: State, id: string)
    requires Settled(s)
    ensures HandedOver(s, OnClose(s, id))
  {
    var next := Remove(Copy(s.list), id);
    if s.role == Host || (s.role == Guest && IsHost(s.list, id)) {
      UpdateListHandsOver(s, next);
      var s2 := UpdateList(s, next);
      if s.role == Guest && NextHost(s.list) == Some(Me(s)) {
        SetRoleHandsOver(s2, Host);
        HandedOverTransitive(s, s2, SetRole(s2, Host));
      }
    }
  }

  lemma OnListHandsOver(s: State, message: map<string, Json>)
    requires Settled(s) && OnList(s, message).Success?
    ensures HandedOver(s, OnList(s, message).value)
  {
    if Negotiating(s) || IsHostFrom(s.list, Field(message, "from")) {
      var remote := Deserialize(JObj(message)).value;
      if !Equals(s.list, remote) {
        if Negotiating(s) {
          var next := SelectList(Copy(s.list), remote).value;
          var s2 := SetRole(s, if Equals(next, s.list) then Host else Guest);
          UpdateListHandsOver(s2.(list := Clear(s2.list)), next);
        } else {
          UpdateListHandsOver(s, remote);
        }
      }
    }
  }

  /** The handler of one input, run on the transport after its bookkeeping. */
  lemma HandlerHandsOver(s: State, input: Input, s1: State)
    requires Settled(s)
    requires input.PeerJoined? ==> s1 == OnConnect(s.(transport := Rtc.OnPeer(s.transport, input.id).0), input.id)
    requires input.PeerStream? ==> s1 == OnStream(s, input.id, input.stream)
    requires input.PeerData? ==>
      Rtc.OnData(input.data).Success? && OnMessage(s, Rtc.OnData(input.data).value.message) == Success(s1)
    requires input.PeerLeft? ==> s1 == OnClose(s.(transport := Rtc.OnClose(s.transport, input.id).0), input.id)
    requires input.SendContent? ==> s1 == Send(s, input.target, input.content)
    requires input.HeartbeatTick? ==> s1 == Heartbeat(s)
    ensures HandedOver(s, s1)
  {
    match input
    case PeerJoined(id) =>
      OnConnectHandsOver(s.(transport := Rtc.OnPeer(s.transport, id).0), id);
    case PeerStream(id, stream) =>
    case PeerData(data) =>
      var m := Rtc.OnData(data).value.message;
      if TypeName(m) == "list" {
        OnListHandsOver(s, m);
      }
    case PeerLeft(id) =>
      OnCloseHandsOver(s.(transport := Rtc.OnClose(s.transport, id).0), id);
    case SendContent(target, content) =>
    case HeartbeatTick =>
  }

  /**
   * The microtask checkpoint emits enter announcements only for reachable
   * ids and leaves the waiters well formed.
   */
  lemma {:induction false} DrainEntersReachable(s: State)
    requires JobsReady(s) && WaitersWellFormed(s)
    ensures s.events <= Drain(s).events
    ensures EntersReachable(s, Drain(s))
    ensures WaitersWellFormed(Drain(s))
    decreases |s.jobs| + |s.presenceWaiters|
  {
    if |s.jobs| > 0 {
      var rest := s.(jobs := s.jobs[1..]);
      var t := RunJob(rest, s.jobs[0]);
      assert Drain(s) == Drain(t);
      if s.jobs[0].AnnounceEnter? {
        var id := s.jobs[0].id;
        var e := rest.(events := rest.events + [EnterParticipant(id, s.jobs[0].role, s.jobs[0].position)]);
        ReleasedFrom(e.presenceWaiters, id);
        ReleaseMembers(e.presenceWaiters, id);
      }
      assert JobsReady(t) && WaitersWellFormed(t);
      DrainEntersReachable(t);
      var r := Drain(t);
      forall k | |s.events| <= k < |r.events| && r.events[k].EnterParticipant?
        ensures Reachable(r, r.events[k].id)
      {
        if k < |t.events| {
          assert r.events[k] == t.events[k];
          assert t.events[k] == EnterParticipant(s.jobs[0].id, s.jobs[0].role, s.jobs[0].position);
          assert s.jobs[0] in s.jobs;
        }
      }
    }
  }

  /** No waiter left waiting for presence has the id of an enter announced between `s` and `r`. */
  predicate PresenceReleased(s: State, r: State) {
    forall k, w :: |s.events| <= k < |r.events| && r.events[k].EnterParticipant? && w in r.presenceWaiters ==>
      w.id != r.events[k].id
  }

  /**
   * The microtask checkpoint only removes presence waiters, and every enter
   * it announces releases the presence waiters for that id, so none of
   * them is left waiting.
   */
  lemma {:induction false} DrainReleasesPresence(s: State)
    ensures forall w :: w in Drain(s).presenceWaiters ==> w in s.presenceWaiters
    ensures s.events <= Drain(s).events
    ensures PresenceReleased(s, Drain(s))
    decreases |s.jobs| + |s.presenceWaiters|
  {
    if |s.jobs| > 0 {
      var j := s.jobs[0];
      var rest := s.(jobs := s.jobs[1..]);
      var t := RunJob(rest, j);
      assert Drain(s) == Drain(t);
      DrainReleasesPresence(t);
      var r := Drain(t);
      if j.AnnounceEnter? {
        ReleaseMembers(rest.presenceWaiters, j.id);
      }
      assert forall w :: w in t.presenceWaiters ==> w in s.presenceWaiters;
      forall k, w | |s.events| <= k < |r.events| && r.events[k].EnterParticipant? && w in r.presenceWaiters
        ensures w.id != r.events[k].id
      {
        if k < |t.events| {
          assert r.events[k] == t.events[k];
          assert j.AnnounceEnter? && r.events[k].id == j.id;
        }
      }
    }
  }

  /**
   * After a step from a settled peer, no presence waiter is left for an id
   * whose enter the step announced.
   */
  lemma StepReleasesPresence(s: State, input: Input)
    requires Settled(s) && Step(s, input).Success?
    ensures PresenceReleased(s, Step(s, input).value)
  {
    var s1 := match input
      case PeerJoined(id) => OnConnect(s.(transport := Rtc.OnPeer(s.transport, id).0), id)
      case PeerStream(id, stream) => OnStream(s, id, stream)
      case PeerData(data) => OnMessage(s, Rtc.OnData(data).value.message).value
      case PeerLeft(id) => OnClose(s.(transport := Rtc.OnClose(s.transport, id).0), id)
      case SendContent(target, content) => Send(s, target, content)
      case HeartbeatTick => Heartbeat(s);
    HandlerHandsOver(s, input, s1);
    assert Step(s, input).value == Drain(s1);
    DrainReleasesPresence(s1);
    var r := Drain(s1);
    forall k, w | |s.events| <= k < |r.events| && r.events[k].EnterParticipant? && w in r.presenceWaiters
      ensures w.id != r.events[k].id
    {
      if k < |s1.events| {
        // the handler itself announces no enter (`HandedOver`)
        assert false;
      }
    }
  }

  /**
   * A step from a settled peer ends settled, and every enter announcement
   * it emits names the local id or a connected peer.
   */
  lemma StepDefersEnters(s: State, input: Input)
    requires Settled(s) && Step(s, input).Success?
    ensures var r := Step(s, input).value;
      && Settled(r)
      && s.events <= r.events
      && EntersReachable(s, r)
  {
    var s1 := match input
      case PeerJoined(id) => OnConnect(s.(transport := Rtc.OnPeer(s.transport, id).0), id)
      case PeerStream(id, stream) => OnStream(s, id, stream)
      case PeerData(data) => OnMessage(s, Rtc.OnData(data).value.message).value
      case PeerLeft(id) => OnClose(s.(transport := Rtc.OnClose(s.transport, id).0), id)
      case SendContent(target, content) => Send(s, target, content)
      case HeartbeatTick => Heartbeat(s);
    HandlerHandsOver(s, input, s1);
    assert Step(s, input).value == Drain(s1);
    DrainEntersReachable(s1);
  }
}

=== FILE: entity_observer.dfy ===
/**
 * The polling half of the entity observer: it keeps, per observed entity,
 * the serialised value of each watched component, and on every `check`
 * reports the components whose value changed, plus, every `keyEach`
 * ticks, a key frame repeating the cached values.
 *
 * Component values arrive already serialised: the schema stringification
 * the observer applies is outside the model, and two values are the same
 * exactly when their strings are.
 */
module EntityObservers {
  import opened Base

  /** The identity of an observed scene entity. */
  type Entity = nat

  /** How often a key frame is sent when the constructor is given no `keyEach`. */
  const DefaultKeyEach: int := 60

  /** One component of an entity, with its data already serialised. */
  datatype Component = Component(name: string, value: string)

  /** The components an entity carries at the moment of a `check`. */
  type World = Entity -> seq<Component>

  /** One entry of the observable map: the cache of serialised values and the filter. */
  datatype Observed = Observed(entity: Entity, cache: map<string, string>, filter: Option<seq<string>>)

  /** The observer: entries in insertion order, the tick counter and the key threshold. */
  datatype Observer = Observer(observed: seq<Observed>, count: int, threshold: int)

  /** A change record handed to the callback. */
  datatype Record = Record(isKey: bool, target: Entity, componentName: string, oldValue: Option<string>, newValue: string)

  /** No entity is observed twice (the observable map is keyed by entity). */
  predicate DistinctEntities(observed: seq<Observed>) {
    forall i, j :: 0 <= i < j < |observed| ==> observed[i].entity != observed[j].entity
  }

  /** No two components share a name. */
  predicate DistinctNames(comps: seq<Component>) {
    forall i, j :: 0 <= i < j < |comps| ==> comps[i].name != comps[j].name
  }

  /** `!filter || filter.indexOf(name) >= 0`. */
  predicate Selected(filter: Option<seq<string>>, name: string) {
    filter.None? || name in filter.value
  }

  /** A cache read: `undefined` for a name never recorded. */
  function Lookup(cache: map<string, string>, name: string): (r: Option<string>)
    ensures r.Some? <==> name in cache
    ensures r.Some? ==> cache[name] == r.value
  {
    if name in cache then Some(cache[name]) else None
  }

  /** The constructor: `keyEach` defaults to 60; no entity is observed yet. */
  function NewObserver(keyEach: Option<int>): (o: Observer)
    ensures o.observed == [] && o.count == 0
    ensures keyEach.None? ==> o.threshold == DefaultKeyEach
    ensures keyEach.Some? ==> o.threshold == keyEach.value
  {
    Observer([], 0, if keyEach.Some? then keyEach.value else DefaultKeyEach)
  }

  /** `_isKey`: advance the counter; reaching the threshold is a key tick and resets it. */
  function NextTick(count: int, threshold: int): (r: (bool, int))
  {
    if count + 1 == threshold then (true, 0) else (false, count + 1)
  }

  /** The counter after `n` consecutive ticks. */
  function CountAfter(count: int, threshold: int, n: nat): int
    decreases n
  {
    if n == 0 then count else CountAfter(NextTick(count, threshold).1, threshold, n - 1)
  }

  /** The key flags of `n` consecutive ticks: tick `i` advances the counter left by the ticks before it. */
  function Ticks(count: int, threshold: int, n: nat): (r: seq<bool>)
    ensures |r| == n
    ensures forall i :: 0 <= i < n ==> r[i] == NextTick(CountAfter(count, threshold, i), threshold).0
    decreases n
  {
    if n == 0 then [] else [NextTick(count, threshold).0] + Ticks(NextTick(count, threshold).1, threshold, n - 1)
  }

  /** Adding one period does not change the remainder. */
  lemma ModPeriod(a: int, t: int)
    requires a >= 0 && t > 0
    ensures (a + t) % t == a % t
  {
    var q := a / t;
    var r := a % t;
    assert a + t == (q + 1) * t + r;
    ModUnique(a + t, t, q + 1, r);
  }

  lemma Distrib(x: int, y: int, t: int)
    ensures (x - y) * t == x * t - y * t
  {
  }

  lemma {:induction false} MulAtLeast(x: int, t: int)
    requires x >= 1 && t > 0
    ensures x * t >= t
    decreases x
  {
    if x > 1 {
      MulAtLeast(x - 1, t);
      assert x * t == (x - 1) * t + t;
    }
  }

  /** Euclidean division has one remainder. */
  lemma ModUnique(a: int, t: int, q: int, r: int)
    requires t > 0 && 0 <= r < t && a == q * t + r
    ensures a % t == r
  {
    var q' := a / t;
    var r' := a % t;
    assert a == q' * t + r';
    Distrib(q', q, t);
    Distrib(q, q', t);
    if q' < q {
      MulAtLeast(q - q', t);
    } else if q' > q {
      MulAtLeast(q' - q, t);
    }
  }

  /** One tick below the threshold, seen modulo the threshold. */
  lemma ModShift(count: int, k: nat, threshold: int)
    requires 0 <= count < threshold && k > 0
    ensures NextTick(count, threshold).1 == (count + 1) % threshold
    ensures (NextTick(count, threshold).1 + (k - 1)) % threshold == (count + k) % threshold
  {
    if count + 1 == threshold {
      ModUnique(count + 1, threshold, 1, 0);
      ModPeriod(k - 1, threshold);
      assert count + k == (k - 1) + threshold;
    } else {
      ModUnique(count + 1, threshold, 0, count + 1);
    }
  }

  /**
   * Starting below a positive threshold, tick `i` (from 0) is a key tick
   * exactly when `count + i + 1` is a multiple of the threshold, and the
   * counter afterwards is `count + n` modulo the threshold.
   */
  lemma {:induction false} KeyPeriodicity(count: int, threshold: int, n: nat)
    requires 0 <= count < threshold
    ensures forall i :: 0 <= i < n ==> (Ticks(count, threshold, n)[i] <==> (count + i + 1) % threshold == 0)
    ensures CountAfter(count, threshold, n) == (count + n) % threshold
    decreases n
  {
    if n == 0 {
      ModUnique(count, threshold, 0, count);
    } else {
      var next := NextTick(count, threshold).1;
      ModShift(count, n, threshold);
      KeyPeriodicity(next, threshold, n - 1);
      var t := Ticks(count, threshold, n);
      forall i | 0 <= i < n ensures t[i] <==> (count + i + 1) % threshold == 0 {
        if i > 0 {
          assert t[i] == Ticks(next, threshold, n - 1)[i - 1];
          ModShift(count, i + 1, threshold);
        } else if count + 1 == threshold {
          ModUnique(count + 1, threshold, 1, 0);
        } else {
          ModUnique(count + 1, threshold, 0, count + 1);
        }
      }
    }
  }

  /** A counter at or above the threshold (a non-positive `keyEach`, say) never produces a key tick. */
  lemma {:induction false} NeverKey(count: int, threshold: int, n: nat)
    requires threshold <= count
    ensures forall i :: 0 <= i < n ==> !Ticks(count, threshold, n)[i]
    ensures CountAfter(count, threshold, n) == count + n
    decreases n
  {
    if n > 0 {
      NeverKey(count + 1, threshold, n - 1);
      var t := Ticks(count, threshold, n);
      assert forall i :: 0 < i < n ==> t[i] == Ticks(count + 1, threshold, n - 1)[i - 1];
    }
  }

  /** `_recordEntity`'s cache: each selected component's value under its name, in component order. */
  function Cache(cache: map<string, string>, comps: seq<Component>, filter: Option<seq<string>>): map<string, string>
    decreases |comps|
  {
    if |comps| == 0 then cache
    else Cache(if Selected(filter, comps[0].name) then cache[comps[0].name := comps[0].value] else cache, comps[1..], filter)
  }

  /**
   * With distinct names, the cache holds the value of every selected
   * component and leaves every other name as it was.
   */
  lemma {:induction false} CacheContents(cache: map<string, string>, comps: seq<Component>, filter: Option<seq<string>>)
    requires DistinctNames(comps)
    ensures forall i :: 0 <= i < |comps| && Selected(filter, comps[i].name) ==>
      Lookup(Cache(cache, comps, filter), comps[i].name) == Some(comps[i].value)
    ensures forall k :: (forall i :: 0 <= i < |comps| && Selected(filter, comps[i].name) ==> comps[i].name != k) ==>
      Lookup(Cache(cache, comps, filter), k) == Lookup(cache, k)
    decreases |comps|
  {
    if |comps| > 0 {
      var c := comps[0];
      var next := if Selected(filter, c.name) then cache[c.name := c.value] else cache;
      CacheContents(next, comps[1..], filter);
      assert forall i :: 0 < i < |comps| ==> comps[i] == comps[1..][i - 1];
      forall k | (forall i :: 0 <= i < |comps| && Selected(filter, comps[i].name) ==> comps[i].name != k)
        ensures Lookup(Cache(cache, comps, filter), k) == Lookup(cache, k)
      {
        assert forall i :: 0 <= i < |comps| - 1 && Selected(filter, comps[1..][i].name) ==> comps[1..][i].name != k by {
          forall i | 0 <= i < |comps| - 1 && Selected(filter, comps[1..][i].name) ensures comps[1..][i].name != k {
            assert comps[1..][i] == comps[i + 1];
          }
        }
      }
    }
  }

  /** The component is selected by the filter and carries the name. */
  predicate SelectedNamed(filter: Option<seq<string>>, c: Component, name: string) {
    Selected(filter, c.name) && c.name == name
  }

  /** Index `i` holds the last selected component named `name`. */
  predicate LastNamedAt(comps: seq<Component>, filter: Option<seq<string>>, name: string, i: int) {
    && 0 <= i < |comps| && SelectedNamed(filter, comps[i], name)
    && forall j :: i < j < |comps| ==> !SelectedNamed(filter, comps[j], name)
  }

  /** The value of the last selected component named `name`, if any. */
  function LastSelected(comps: seq<Component>, filter: Option<seq<string>>, name: string): (r: Option<string>)
    ensures r.None? <==> forall i :: 0 <= i < |comps| ==> !SelectedNamed(filter, comps[i], name)
    ensures r.Some? ==> exists i :: LastNamedAt(comps, filter, name, i) && comps[i].value == r.value
    decreases |comps|
  {
    if |comps| == 0 then None
    else
      var rest := LastSelected(comps[1..], filter, name);
      assert forall j :: 0 < j < |comps| ==> comps[j] == comps[1..][j - 1];
      if rest.Some? then
        var i :| LastNamedAt(comps[1..], filter, name, i) && comps[1..][i].value == rest.value;
        assert LastNamedAt(comps, filter, name, i + 1);
        rest
      else if SelectedNamed(filter, comps[0], name) then
        assert LastNamedAt(comps, filter, name, 0);
        Some(comps[0].value)
      else rest
  }

  /**
   * `_recordEntity` in general: for each name, the cache ends with the value
   * of the last selected component of that name, since later components
   * overwrite earlier ones, and keeps the old value when none is selected.
   */
  lemma {:induction false} CacheLastWins(cache: map<string, string>, comps: seq<Component>, filter: Option<seq<string>>, name: string)
    ensures Lookup(Cache(cache, comps, filter), name) ==
      if LastSelected(comps, filter, name).Some? then LastSelected(comps, filter, name) else Lookup(cache, name)
    decreases |comps|
  {
    if |comps| > 0 {
      var c := comps[0];
      var next := if Selected(filter, c.name) then cache[c.name := c.value] else cache;
      CacheLastWins(next, comps[1..], filter, name);
    }
  }

  /** Removes an entity's entry, keeping the others in order (`Map.delete`). */
  function Drop(observed: seq<Observed>, entity: Entity): (r: seq<Observed>)
    ensures forall x :: x in r <==> x in observed && x.entity != entity
    ensures |r| <= |observed|
    ensures DistinctEntities(observed) ==> DistinctEntities(r)
  {
    if |observed| == 0 then []
    else
      var rest := Drop(observed[1..], entity);
      if observed[0].entity == entity then rest
      else
        assert forall x :: x in rest ==> x in observed[1..];
        assert forall k :: 0 < k < |observed| ==> observed[k] in observed[1..];
        [observed[0]] + rest
  }

  /**
   * `observe(entity, init)`: with `components` set, the entity's entry is
   * replaced wholesale by a fresh cache of the current selected values and
   * the new filter, and moves to the end of the iteration order; without it
   * the component polling is untouched.
   */
  function Observe(o: Observer, entity: Entity, components: bool, filter: Option<seq<string>>, comps: seq<Component>): (r: Observer)
    ensures r.count == o.count && r.threshold == o.threshold
    ensures !components ==> r == o
    ensures components ==>
      && |r.observed| > 0
      && r.observed[|r.observed| - 1] == Observed(entity, Cache(map[], comps, filter), filter)
      && (forall x :: x in r.observed[..|r.observed| - 1] <==> x in o.observed && x.entity != entity)
    ensures DistinctEntities(o.observed) ==> DistinctEntities(r.observed)
  {
    if !components then o
    else
      var kept := Drop(o.observed, entity);
      var r := o.(observed := kept + [Observed(entity, Cache(map[], comps, filter), filter)]);
      assert r.observed[..|r.observed| - 1] == kept;
      r
  }

  /** `disconnect()`: every entry is forgotten; the counter is not reset. */
  function Disconnect(o: Observer): (r: Observer)
    ensures r.observed == [] && r.count == o.count && r.threshold == o.threshold
  {
    o.(observed := [])
  }

  /**
   * `_collectChanges` over one entity's components, in order. On a key tick
   * each selected component with a truthy cached value is repeated as a key
   * record and the cache is left alone; otherwise a selected component whose
   * value differs from the cache is reported with both values and cached.
   */
  function Collect(cache: map<string, string>, filter: Option<seq<string>>, target: Entity, comps: seq<Component>, isKey: bool): (r: (map<string, string>, seq<Record>))
    ensures |r.1| <= |comps|
    ensures forall rec :: rec in r.1 ==> rec.isKey == isKey && rec.target == target && Selected(filter, rec.componentName)
    ensures isKey ==> r.0 == cache
    decreases |comps|
  {
    if |comps| == 0 then (cache, [])
    else
      var c := comps[0];
      if !Selected(filter, c.name) then Collect(cache, filter, target, comps[1..], isKey)
      else if isKey then
        var rest := Collect(cache, filter, target, comps[1..], true);
        if c.name in cache && cache[c.name] != "" then (rest.0, [Record(true, target, c.name, Some(cache[c.name]), cache[c.name])] + rest.1)
        else rest
      else
        var prev := Lookup(cache, c.name);
        if prev != Some(c.value) then
          var rest := Collect(cache[c.name := c.value], filter, target, comps[1..], false);
          (rest.0, [Record(false, target, c.name, prev, c.value)] + rest.1)
        else Collect(cache, filter, target, comps[1..], false)
  }

  /** One component of a key tick. */
  lemma KeyStep(cache: map<string, string>, filter: Option<seq<string>>, target: Entity, comps: seq<Component>)
    requires |comps| > 0
    ensures var c := comps[0];
      var repeated := Selected(filter, c.name) && c.name in cache && cache[c.name] != "";
      Collect(cache, filter, target, comps, true).1 ==
        (if repeated then [Record(true, target, c.name, Some(cache[c.name]), cache[c.name])] else []) +
        Collect(cache, filter, target, comps[1..], true).1
  {
  }

  /** One component of a non-key tick. */
  lemma ChangeStep(cache: map<string, string>, filter: Option<seq<string>>, target: Entity, comps: seq<Component>)
    requires |comps| > 0
    ensures var c := comps[0];
      var changed := Selected(filter, c.name) && Lookup(cache, c.name) != Some(c.value);
      var rest := Collect(if changed then cache[c.name := c.value] else cache, filter, target, comps[1..], false);
      Collect(cache, filter, target, comps, false) ==
        (rest.0, (if changed then [Record(false, target, c.name, Lookup(cache, c.name), c.value)] else []) + rest.1)
  {
    var c := comps[0];
    if !(Selected(filter, c.name) && Lookup(cache, c.name) != Some(c.value)) {
      var rest := Collect(cache, filter, target, comps[1..], false);
      assert [] + rest.1 == rest.1;
    }
  }

  /** A key record repeats a truthy cached value of one of the entity's components. */
  predicate KeyRecordFor(cache: map<string, string>, comps: seq<Component>, rec: Record) {
    && rec.oldValue == Some(rec.newValue)
    && Lookup(cache, rec.componentName) == Some(rec.newValue)
    && rec.newValue != ""
    && exists c :: c in comps && c.name == rec.componentName
  }

  /** Some record names the component. */
  predicate Reported(recs: seq<Record>, name: string) {
    exists rec :: rec in recs && rec.componentName == name
  }

  /**
   * Key ticks: every record repeats a truthy cached value, and every
   * selected component with a truthy cached value is repeated.
   */
  lemma {:induction false} KeyTick(cache: map<string, string>, filter: Option<seq<string>>, target: Entity, comps: seq<Component>)
    ensures var recs := Collect(cache, filter, target, comps, true).1;
      && (forall rec :: rec in recs ==> KeyRecordFor(cache, comps, rec))
      && (forall c :: c in comps && Selected(filter, c.name) && c.name in cache && cache[c.name] != "" ==> Reported(recs, c.name))
    decreases |comps|
  {
    if |comps| > 0 {
      KeyTick(cache, filter, target, comps[1..]);
      KeyStep(cache, filter, target, comps);
      var c := comps[0];
      var recs := Collect(cache, filter, target, comps, true).1;
      var rest := Collect(cache, filter, target, comps[1..], true).1;
      assert forall x :: x in comps[1..] ==> x in comps;
      assert forall x :: x in comps ==> x == c || x in comps[1..];
      forall rec | rec in recs ensures KeyRecordFor(cache, comps, rec) {
        if rec !in rest {
          assert rec.componentName == c.name;
        }
      }
      forall x | x in comps && Selected(filter, x.name) && x.name in cache && cache[x.name] != ""
        ensures Reported(recs, x.name)
      {
        if x == c {
          assert recs[0].componentName == c.name;
        } else {
          var rec :| rec in rest && rec.componentName == x.name;
          assert rec in recs;
        }
      }
    }
  }

  /** A change record reports a selected component whose value differs from its cached one. */
  predicate ChangeRecordFor(cache: map<string, string>, filter: Option<seq<string>>, comps: seq<Component>, rec: Record) {
    exists c :: c in comps && c.name == rec.componentName && Selected(filter, c.name) &&
      rec.newValue == c.value && rec.oldValue == Lookup(cache, c.name) && rec.oldValue != Some(rec.newValue)
  }

  lemma DistinctTail(comps: seq<Component>)
    requires |comps| > 0 && DistinctNames(comps)
    ensures DistinctNames(comps[1..])
    ensures forall x :: x in comps[1..] ==> x.name != comps[0].name && x in comps
    ensures forall x :: x in comps ==> x == comps[0] || x in comps[1..]
  {
    forall x | x in comps[1..] ensures x.name != comps[0].name {
      var j :| 0 <= j < |comps[1..]| && comps[1..][j] == x;
      assert comps[j + 1] == x;
    }
  }

  lemma {:induction false} ChangeTickSound(cache: map<string, string>, filter: Option<seq<string>>, target: Entity, comps: seq<Component>)
    requires DistinctNames(comps)
    ensures forall rec :: rec in Collect(cache, filter, target, comps, false).1 ==> ChangeRecordFor(cache, filter, comps, rec)
    decreases |comps|
  {
    if |comps| > 0 {
      var c := comps[0];
      var changed := Selected(filter, c.name) && Lookup(cache, c.name) != Some(c.value);
      var next := if changed then cache[c.name := c.value] else cache;
      DistinctTail(comps);
      ChangeTickSound(next, filter, target, comps[1..]);
      ChangeStep(cache, filter, target, comps);
      var rest := Collect(next, filter, target, comps[1..], false).1;
      forall rec | rec in Collect(cache, filter, target, comps, false).1 ensures ChangeRecordFor(cache, filter, comps, rec) {
        if rec in rest {
          var x :| x in comps[1..] && x.name == rec.componentName && Selected(filter, x.name) &&
            rec.newValue == x.value && rec.oldValue == Lookup(next, x.name) && rec.oldValue != Some(rec.newValue);
          assert Lookup(next, x.name) == Lookup(cache, x.name);
        } else {
          assert rec == Record(false, target, c.name, Lookup(cache, c.name), c.value);
          assert c in comps;
        }
      }
    }
  }

  lemma {:induction false} ChangeTickComplete(cache: map<string, string>, filter: Option<seq<string>>, target: Entity, comps: seq<Component>)
    requires DistinctNames(comps)
    ensures forall c :: c in comps && Selected(filter, c.name) && Lookup(cache, c.name) != Some(c.value) ==>
      Reported(Collect(cache, filter, target, comps, false).1, c.name)
    decreases |comps|
  {
    if |comps| > 0 {
      var c := comps[0];
      var changed := Selected(filter, c.name) && Lookup(cache, c.name) != Some(c.value);
      var next := if changed then cache[c.name := c.value] else cache;
      DistinctTail(comps);
      ChangeTickComplete(next, filter, target, comps[1..]);
      ChangeStep(cache, filter, target, comps);
      var recs := Collect(cache, filter, target, comps, false).1;
      var rest := Collect(next, filter, target, comps[1..], false).1;
      forall x | x in comps && Selected(filter, x.name) && Lookup(cache, x.name) != Some(x.value)
        ensures Reported(recs, x.name)
      {
        if x == c {
          assert recs[0].componentName == c.name;
        } else {
          assert Lookup(next, x.name) == Lookup(cache, x.name);
          var rec :| rec in rest && rec.componentName == x.name;
          assert rec in recs;
        }
      }
    }
  }

  lemma {:induction false} ChangeTickCache(cache: map<string, string>, filter: Option<seq<string>>, target: Entity, comps: seq<Component>)
    ensures Collect(cache, filter, target, comps, false).0 == Cache(cache, comps, filter)
    decreases |comps|
  {
    if |comps| > 0 {
      var c := comps[0];
      var changed := Selected(filter, c.name) && Lookup(cache, c.name) != Some(c.value);
      var next := if changed then cache[c.name := c.value] else cache;
      ChangeTickCache(next, filter, target, comps[1..]);
      ChangeStep(cache, filter, target, comps);
      if Selected(filter, c.name) && !changed {
        assert cache[c.name := c.value] == cache;
      }
    }
  }

  /**
   * Non-key ticks, for components with distinct names: every record is a
   * change of one selected component against the cache, every such change
   * is recorded, and the cache ends up holding the current values.
   */
  lemma ChangeTick(cache: map<string, string>, filter: Option<seq<string>>, target: Entity, comps: seq<Component>)
    requires DistinctNames(comps)
    ensures var r := Collect(cache, filter, target, comps, false);
      && (forall rec :: rec in r.1 ==> ChangeRecordFor(cache, filter, comps, rec))
      && (forall c :: c in comps && Selected(filter, c.name) && Lookup(cache, c.name) != Some(c.value) ==> Reported(r.1, c.name))
      && r.0 == Cache(cache, comps, filter)
  {
    ChangeTickSound(cache, filter, target, comps);
    ChangeTickComplete(cache, filter, target, comps);
    ChangeTickCache(cache, filter, target, comps);
  }

  /**
   * A non-key tick stays silent exactly when every selected component still
   * has its cached value, whether or not components share a name.
   */
  lemma {:induction false} QuietIffUnchanged(cache: map<string, string>, filter: Option<seq<string>>, target: Entity, comps: seq<Component>)
    ensures Collect(cache, filter, target, comps, false).1 == [] <==>
      forall c :: c in comps && Selected(filter, c.name) ==> Lookup(cache, c.name) == Some(c.value)
    decreases |comps|
  {
    if |comps| > 0 {
      var c := comps[0];
      ChangeStep(cache, filter, target, comps);
      if !(Selected(filter, c.name) && Lookup(cache, c.name) != Some(c.value)) {
        QuietIffUnchanged(cache, filter, target, comps[1..]);
        assert forall x :: x in comps ==> x == c || x in comps[1..];
        assert forall x :: x in comps[1..] ==> x in comps;
      } else {
        assert c in comps;
      }
    }
  }

  /** Observing an entity and checking it on a non-key tick with unchanged components reports nothing. */
  lemma ObserveThenQuiet(o: Observer, entity: Entity, filter: Option<seq<string>>, comps: seq<Component>)
    requires DistinctNames(comps)
    ensures var e := Observe(o, entity, true, filter, comps).observed;
      Collect(e[|e| - 1].cache, filter, entity, comps, false).1 == []
  {
    CacheContents(map[], comps, filter);
    QuietIffUnchanged(Cache(map[], comps, filter), filter, entity, comps);
  }

  /**
   * Two components sharing a name overwrite each other's cache entry, so a
   * non-key tick reports both again even though nothing changed.
   */
  lemma SharedNameReportedEveryTick()
    ensures var comps := [Component("sound", "a"), Component("sound", "b")];
      && Cache(map[], comps, None) == map["sound" := "b"]
      && |Collect(map["sound" := "b"], None, 0, comps, false).1| == 2
  {
    var comps := [Component("sound", "a"), Component("sound", "b")];
    assert comps[1..] == [Component("sound", "b")];
    assert comps[1..][1..] == [];
  }

  /** A callback batch: non-empty, every record about one entity. */
  predicate BatchFor(b: seq<Record>, e: Entity) {
    |b| > 0 && forall rec :: rec in b ==> rec.target == e
  }

  /** Every record of the batch carries the same key flag. */
  predicate AllKey(b: seq<Record>, isKey: bool) {
    forall rec :: rec in b ==> rec.isKey == isKey
  }

  /**
   * `check()` over the entries in order: one tick per entity, and the
   * callback only for a non-empty batch of records.
   */
  function CheckEntries(entries: seq<Observed>, count: int, threshold: int, world: World): (r: (seq<Observed>, int, seq<seq<Record>>))
    ensures |r.0| == |entries|
    ensures |r.2| <= |entries|
    decreases |entries|
  {
    if |entries| == 0 then ([], count, [])
    else
      var tick := NextTick(count, threshold);
      var e := entries[0];
      var collected := Collect(e.cache, e.filter, e.entity, world(e.entity), tick.0);
      var rest := CheckEntries(entries[1..], tick.1, threshold, world);
      ([e.(cache := collected.0)] + rest.0, rest.1, (if |collected.1| > 0 then [collected.1] else []) + rest.2)
  }

  /**
   * A check keeps every entry's entity and filter in place, ticks once per
   * entry, and calls back at most once per entry, with a non-empty batch
   * about that entry's entity.
   */
  lemma {:induction false} CheckShape(entries: seq<Observed>, count: int, threshold: int, world: World)
    ensures var r := CheckEntries(entries, count, threshold, world);
      && (forall i :: 0 <= i < |entries| ==> r.0[i].entity == entries[i].entity && r.0[i].filter == entries[i].filter)
      && r.1 == CountAfter(count, threshold, |entries|)
      && (forall b :: b in r.2 ==> exists e :: e in entries && BatchFor(b, e.entity))
    decreases |entries|
  {
    if |entries| > 0 {
      var tick := NextTick(count, threshold);
      var e := entries[0];
      var collected := Collect(e.cache, e.filter, e.entity, world(e.entity), tick.0);
      CheckShape(entries[1..], tick.1, threshold, world);
      var r := CheckEntries(entries, count, threshold, world);
      var rest := CheckEntries(entries[1..], tick.1, threshold, world);
      assert forall i :: 0 < i < |entries| ==> entries[i] == entries[1..][i - 1] && r.0[i] == rest.0[i - 1];
      assert forall x :: x in entries[1..] ==> x in entries;
      assert |collected.1| > 0 ==> BatchFor(collected.1, e.entity);
      forall b | b in r.2 ensures exists x :: x in entries && BatchFor(b, x.entity) {
        if b !in rest.2 {
          assert b == collected.1 && e in entries;
        }
      }
    }
  }

  /** `check()`. */
  function Check(o: Observer, world: World): (r: (Observer, seq<seq<Record>>))
    ensures r.0.threshold == o.threshold && r.0.count == CountAfter(o.count, o.threshold, |o.observed|)
    ensures |r.0.observed| == |o.observed|
    ensures |r.1| <= |o.observed|
  {
    var out := CheckEntries(o.observed, o.count, o.threshold, world);
    CheckShape(o.observed, o.count, o.threshold, world);
    (o.(observed := out.0, count := out.1), out.2)
  }

  /** One entry of a check, unfolded. */
  lemma CheckUnfold(entries: seq<Observed>, count: int, threshold: int, world: World)
    requires |entries| > 0
    ensures var tick := NextTick(count, threshold);
      var e := entries[0];
      var collected := Collect(e.cache, e.filter, e.entity, world(e.entity), tick.0);
      var rest := CheckEntries(entries[1..], tick.1, threshold, world);
      CheckEntries(entries, count, threshold, world) ==
        ([e.(cache := collected.0)] + rest.0, rest.1, (if |collected.1| > 0 then [collected.1] else []) + rest.2)
  {
  }

  /** Moving one entry from the unchecked suffix to the checked prefix. */
  lemma CheckAdvance(entries: seq<Observed>, i: nat, count: int, threshold: int, world: World,
                     done: seq<Observed>, batches: seq<seq<Record>>, whole: (seq<Observed>, int, seq<seq<Record>>))
    requires i < |entries|
    requires var rest := CheckEntries(entries[i..], count, threshold, world);
      done + rest.0 == whole.0 && rest.1 == whole.1 && batches + rest.2 == whole.2
    ensures var e := entries[i];
      var tick := NextTick(count, threshold);
      var collected := Collect(e.cache, e.filter, e.entity, world(e.entity), tick.0);
      var next := CheckEntries(entries[i + 1..], tick.1, threshold, world);
      && (done + [e.(cache := collected.0)]) + next.0 == whole.0
      && next.1 == whole.1
      && (batches + (if |collected.1| > 0 then [collected.1] else [])) + next.2 == whole.2
  {
    assert entries[i..][0] == entries[i] && entries[i..][1..] == entries[i + 1..];
    CheckUnfold(entries[i..], count, threshold, world);
  }

  /**
   * The `forEach` of `check()`: one `_isKey` per entry, then
   * `_collectChanges` on it. It computes `Check`.
   */
  method CheckInOrder(o: Observer, world: World) returns (r: Observer, batches: seq<seq<Record>>)
    ensures (r, batches) == Check(o, world)
  {
    ghost var whole := CheckEntries(o.observed, o.count, o.threshold, world);
    var done: seq<Observed> := [];
    var count := o.count;
    batches := [];
    var i := 0;
    ghost var rest := whole;
    assert o.observed[0..] == o.observed;
    while i < |o.observed|
      invariant 0 <= i <= |o.observed|
      invariant rest == CheckEntries(o.observed[i..], count, o.threshold, world)
      invariant done + rest.0 == whole.0 && rest.1 == whole.1 && batches + rest.2 == whole.2
    {
      var e := o.observed[i];
      var tick := NextTick(count, o.threshold);
      var collected := Collect(e.cache, e.filter, e.entity, world(e.entity), tick.0);
      ghost var next := CheckEntries(o.observed[i + 1..], tick.1, o.threshold, world);
      var head := if |collected.1| > 0 then [collected.1] else [];
      CheckAdvance(o.observed, i, count, o.threshold, world, done, batches, whole);
      done := done + [e.(cache := collected.0)];
      batches := batches + head;
      count := tick.1;
      i := i + 1;
      rest := next;
    }
    assert done == whole.0 && batches == whole.2 && count == whole.1 by {
      assert o.observed[i..] == [];
      assert rest == ([], count, []);
      assert done + [] == done && batches + [] == batches;
    }
    assert Check(o, world) == (o.(observed := whole.0, count := whole.1), whole.2);
    r := o.(observed := done, count := count);
  }

  /** The first entry of a check: its own batch, if any, then the rest. */
  lemma CheckStep(entries: seq<Observed>, count: int, threshold: int, world: World)
    requires |entries| > 0
    ensures var tick := NextTick(count, threshold);
      var e := entries[0];
      var collected := Collect(e.cache, e.filter, e.entity, world(e.entity), tick.0).1;
      CheckEntries(entries, count, threshold, world).2 ==
        (if |collected| > 0 then [collected] else []) + CheckEntries(entries[1..], tick.1, threshold, world).2
  {
  }

  /** Every batch about entry `i`'s entity carries key flag `ticks[i]`. */
  predicate KeyFlagsMatch(entries: seq<Observed>, batches: seq<seq<Record>>, ticks: seq<bool>)
    requires |ticks| == |entries|
  {
    forall b: seq<Record>, i: int :: b in batches && 0 <= i < |entries| && BatchFor(b, entries[i].entity) ==> AllKey(b, ticks[i])
  }

  /** A batch of the later entries about entry `i`'s entity: `i` is not the first entry. */
  lemma KeyFlagLater(entries: seq<Observed>, later: seq<seq<Record>>, laterTicks: seq<bool>, b: seq<Record>, i: int)
    requires DistinctEntities(entries) && |entries| > 0 && |laterTicks| == |entries| - 1
    requires KeyFlagsMatch(entries[1..], later, laterTicks)
    requires forall c :: c in later ==> exists x :: x in entries[1..] && BatchFor(c, x.entity)
    requires b in later && 0 <= i < |entries| && BatchFor(b, entries[i].entity)
    ensures 0 < i && AllKey(b, laterTicks[i - 1])
  {
    var rest := entries[1..];
    var x :| x in rest && BatchFor(b, x.entity);
    var j :| 0 <= j < |rest| && rest[j] == x;
    assert b[0] in b;
    assert entries[j + 1].entity == entries[i].entity;
    assert i == j + 1;
  }

  /** The key flag of each record is the tick of its entity's position in the iteration. */
  lemma {:induction false} CheckTicks(entries: seq<Observed>, count: int, threshold: int, world: World)
    requires DistinctEntities(entries)
    ensures KeyFlagsMatch(entries, CheckEntries(entries, count, threshold, world).2, Ticks(count, threshold, |entries|))
    decreases |entries|
  {
    if |entries| > 0 {
      var tick := NextTick(count, threshold);
      var e := entries[0];
      var rest := entries[1..];
      assert DistinctEntities(rest) by {
        assert forall i :: 0 <= i < |rest| ==> rest[i] == entries[i + 1];
      }
      CheckTicks(rest, tick.1, threshold, world);
      CheckShape(rest, tick.1, threshold, world);
      CheckStep(entries, count, threshold, world);
      var collected := Collect(e.cache, e.filter, e.entity, world(e.entity), tick.0).1;
      var batches := CheckEntries(entries, count, threshold, world).2;
      var later := CheckEntries(rest, tick.1, threshold, world).2;
      var ticks := Ticks(count, threshold, |entries|);
      var laterTicks := Ticks(tick.1, threshold, |rest|);
      assert ticks == [tick.0] + laterTicks;
      forall b: seq<Record>, i: int | b in batches && 0 <= i < |entries| && BatchFor(b, entries[i].entity)
        ensures AllKey(b, ticks[i])
      {
        if b in later {
          KeyFlagLater(entries, later, laterTicks, b, i);
        } else {
          assert b == collected;
          assert b[0] in b;
          assert e.entity == entries[i].entity;
          assert i == 0;
        }
      }
    }
  }

  /** Non-empty batches, no two of them about the same entity. */
  predicate OneBatchPerEntity(batches: seq<seq<Record>>) {
    && (forall j :: 0 <= j < |batches| ==> |batches[j]| > 0)
    && (forall j, k :: 0 <= j < k < |batches| ==> batches[j][0].target != batches[k][0].target)
  }

  /** An entry after the first is about another entity. */
  lemma LaterEntity(entries: seq<Observed>, x: Observed)
    requires DistinctEntities(entries) && |entries| > 0 && x in entries[1..]
    ensures x.entity != entries[0].entity
  {
    var j :| 0 <= j < |entries[1..]| && entries[1..][j] == x;
    assert entries[j + 1] == x;
  }

  /**
   * With each entity observed once, a check calls back at most once per
   * entity, and never with an empty batch.
   */
  lemma {:induction false} CheckOncePerEntity(entries: seq<Observed>, count: int, threshold: int, world: World)
    requires DistinctEntities(entries)
    ensures OneBatchPerEntity(CheckEntries(entries, count, threshold, world).2)
    decreases |entries|
  {
    if |entries| > 0 {
      var tick := NextTick(count, threshold);
      var e := entries[0];
      var rest := entries[1..];
      assert DistinctEntities(rest) by {
        assert forall i :: 0 <= i < |rest| ==> rest[i] == entries[i + 1];
      }
      CheckOncePerEntity(rest, tick.1, threshold, world);
      CheckShape(rest, tick.1, threshold, world);
      CheckStep(entries, count, threshold, world);
      var collected := Collect(e.cache, e.filter, e.entity, world(e.entity), tick.0).1;
      var later := CheckEntries(rest, tick.1, threshold, world).2;
      if |collected| > 0 {
        var b: seq<seq<Record>> := [collected] + later;
        assert collected[0] in collected;
        forall k | 0 < k < |b| ensures b[0][0].target != b[k][0].target {
          assert b[k] == later[k - 1] && later[k - 1] in later;
          var x :| x in rest && BatchFor(later[k - 1], x.entity);
          LaterEntity(entries, x);
          assert later[k - 1][0] in later[k - 1];
        }
        assert forall j, k :: 0 < j < k < |b| ==> b[j] == later[j - 1] && b[k] == later[k - 1];
      }
    }
  }

  /** After `disconnect()`, a `check` reports nothing and changes nothing. */
  lemma DisconnectSilences(o: Observer, world: World)
    ensures Check(Disconnect(o), world).1 == []
    ensures Check(Disconnect(o), world).0 == Disconnect(o)
  {
  }

  /** Successive checks against the given worlds; the batches of each. */
  function CheckSeries(o: Observer, worlds: seq<World>): (r: (Observer, seq<seq<seq<Record>>>))
    ensures |r.1| == |worlds|
    ensures r.0.threshold == o.threshold && |r.0.observed| == |o.observed|
    decreases |worlds|
  {
    if |worlds| == 0 then (o, [])
    else
      var first := Check(o, worlds[0]);
      var rest := CheckSeries(first.0, worlds[1..]);
      (rest.0, [first.1] + rest.1)
  }

  /** The first check of a single observed entity: its batches carry the key flag of one tick. */
  lemma SingleEntityCheck(o: Observer, world: World)
    requires |o.observed| == 1 && 0 <= o.count < o.threshold
    ensures Check(o, world).0.count == (o.count + 1) % o.threshold
    ensures forall b :: b in Check(o, world).1 ==> AllKey(b, (o.count + 1) % o.threshold == 0)
  {
    KeyPeriodicity(o.count, o.threshold, 1);
    CheckTicks(o.observed, o.count, o.threshold, world);
    CheckShape(o.observed, o.count, o.threshold, world);
    var out := CheckEntries(o.observed, o.count, o.threshold, world);
    forall b | b in out.2 ensures AllKey(b, (o.count + 1) % o.threshold == 0) {
      var x :| x in o.observed && BatchFor(b, x.entity);
      assert x == o.observed[0];
    }
  }

  /**
   * With a single observed entity and the counter below a positive
   * threshold, every record of check `n` (from 0) is a key record exactly
   * when `count + n + 1` is a multiple of the threshold: with the default
   * 60, one key frame each 60 checks.
   */
  lemma {:induction false} SingleEntityKeyFrames(o: Observer, worlds: seq<World>)
    requires |o.observed| == 1 && 0 <= o.count < o.threshold
    ensures var batches := CheckSeries(o, worlds).1;
      forall n: int, b: seq<Record> :: 0 <= n < |batches| && b in batches[n] ==> AllKey(b, (o.count + n + 1) % o.threshold == 0)
    decreases |worlds|
  {
    if |worlds| > 0 {
      var first := Check(o, worlds[0]);
      SingleEntityCheck(o, worlds[0]);
      var next := first.0;
      assert 0 <= next.count < next.threshold;
      SingleEntityKeyFrames(next, worlds[1..]);
      assert forall m: int, c: seq<Record> :: 0 <= m < |CheckSeries(next, worlds[1..]).1| && c in CheckSeries(next, worlds[1..]).1[m] ==>
        AllKey(c, (next.count + m + 1) % next.threshold == 0);
      var batches := CheckSeries(o, worlds).1;
      var later := CheckSeries(next, worlds[1..]).1;
      forall n: int, b: seq<Record> | 0 <= n < |batches| && b in batches[n]
        ensures AllKey(b, (o.count + n + 1) % o.threshold == 0)
      {
        if n == 0 {
          assert batches[0] == first.1;
          assert b in first.1;
        } else {
          assert batches[n] == later[n - 1];
          assert 0 <= n - 1 < |later| && b in later[n - 1];
          assert AllKey(b, (next.count + (n - 1) + 1) % next.threshold == 0);
          ModShift(o.count, n + 1, o.threshold);
          assert (next.count + (n - 1) + 1) % o.threshold == (o.count + n + 1) % o.threshold;
        }
      }
    }
  }
}

=== FILE: guest_list.dfy ===
/**
 * The ordered membership list of a shared session: a creation timestamp and a
 * sequence of participant ids in which a departed participant's slot is
 * tombstoned (set to null) in place, so that positions never shift.
 */
module GuestLists {
  import opened Base
  import opened Json

  /** A participant's role relative to a list (`getRole`) or a peer's own role. */
  datatype Role = Unknown | Host | Guest

  /** `None` is a tombstone (`null` in the wire form). */
  datatype GuestList = GuestList(timestamp: int, slots: seq<Option<string>>)

  datatype Action = Enter | Exit

  /** One record of `computeChanges`; `id` is the slot value, so it may be null. */
  datatype Change = Change(id: Option<string>, role: Role, position: int, action: Action)

  /**
   * JavaScript truthiness of a slot, as tested by `if (guest)` and
   * `!target._list[index]`: a tombstone and the empty id are both falsy.
   */
  predicate Occupied(slot: Option<string>) {
    slot.Some? && slot.value != ""
  }

  /** Reading `list[i]`: past the end JavaScript yields `undefined`, which is falsy. */
  function SlotAt(slots: seq<Option<string>>, i: nat): (r: Option<string>)
    ensures i >= |slots| ==> !Occupied(r)
  {
    if i < |slots| then slots[i] else None
  }

  /** No participant id (non-null slot value) occurs in two slots. */
  predicate DistinctIds(l: GuestList) {
    forall i, j :: 0 <= i < j < |l.slots| && l.slots[i].Some? ==> l.slots[i] != l.slots[j]
  }

  function Length(l: GuestList): nat {
    |l.slots|
  }

  /** `Array.prototype.indexOf` with strict equality: the first index holding `v`, or -1. */
  function IndexOf(slots: seq<Option<string>>, v: Option<string>): (i: int)
    ensures -1 <= i < |slots|
    ensures i == -1 <==> v !in slots
    ensures 0 <= i ==> slots[i] == v && v !in slots[..i]
  {
    if |slots| == 0 then -1
    else if slots[0] == v then 0
    else
      var k := IndexOf(slots[1..], v);
      if k < 0 then -1
      else
        assert slots[..k + 1] == [slots[0]] + slots[1..][..k];
        k + 1
  }

  /** `add`: appends the id only when no slot already holds it. */
  function Add(l: GuestList, guest: string): (r: GuestList)
    ensures r.timestamp == l.timestamp
    ensures Some(guest) in r.slots
    ensures Some(guest) in l.slots ==> r == l
    ensures Some(guest) !in l.slots ==> r.slots == l.slots + [Some(guest)]
  {
    if IndexOf(l.slots, Some(guest)) < 0 then l.(slots := l.slots + [Some(guest)]) else l
  }

  /**
   * `remove`: tombstones the first slot holding the id. For an absent id the
   * source assigns to index -1, which is not a slot, so nothing changes.
   */
  function Remove(l: GuestList, guest: string): (r: GuestList)
    ensures r.timestamp == l.timestamp && |r.slots| == |l.slots|
    ensures Some(guest) !in l.slots ==> r == l
    ensures Some(guest) in l.slots ==>
              (var i := IndexOf(l.slots, Some(guest));
               r.slots[i] == None && forall k :: 0 <= k < |l.slots| && k != i ==> r.slots[k] == l.slots[k])
    ensures DistinctIds(l) ==> Some(guest) !in r.slots
  {
    var i := IndexOf(l.slots, Some(guest));
    if i < 0 then l else l.(slots := l.slots[i := None])
  }

  /** Element-by-element strict comparison of two slot sequences, as the loop in `equals`. */
  predicate SlotsMatch(x: seq<Option<string>>, y: seq<Option<string>>)
    requires |x| == |y|
  {
    |x| == 0 || (x[0] == y[0] && SlotsMatch(x[1..], y[1..]))
  }

  /** `equals`: same timestamp, same length, and the same value in every slot. */
  predicate Equals(a: GuestList, b: GuestList) {
    a.timestamp == b.timestamp && |a.slots| == |b.slots| && SlotsMatch(a.slots, b.slots)
  }

  /** Index of the first occupied slot at or after `from`, or `|slots|` when there is none. */
  function FirstOccupied(slots: seq<Option<string>>, from: nat): (i: nat)
    requires from <= |slots|
    ensures from <= i <= |slots|
    ensures i < |slots| ==> Occupied(slots[i])
    ensures forall k :: from <= k < i ==> !Occupied(slots[k])
    decreases |slots| - from
  {
    if from == |slots| then from
    else if Occupied(slots[from]) then from
    else FirstOccupied(slots, from + 1)
  }

  /** `host()`: the first occupied slot; `None` plays `undefined`. */
  function HostOf(l: GuestList): (r: Option<string>)
    ensures r.None? <==> forall k :: 0 <= k < |l.slots| ==> !Occupied(l.slots[k])
    ensures r.Some? ==> Occupied(r)
    ensures r.Some? ==>
              exists i :: 0 <= i < |l.slots| && l.slots[i] == r &&
                          forall k :: 0 <= k < i ==> !Occupied(l.slots[k])
  {
    var i := FirstOccupied(l.slots, 0);
    if i < |l.slots| then l.slots[i] else None
  }

  /**
   * `nextHost()`: the first occupied slot after the host's index. With no
   * host, `indexOf(undefined)` is -1 (slots hold `null`, never `undefined`),
   * so the scan starts at 0 and finds nothing.
   */
  function NextHost(l: GuestList): Option<string> {
    var hostIndex := if HostOf(l).None? then -1 else IndexOf(l.slots, HostOf(l));
    var i := FirstOccupied(l.slots, hostIndex + 1);
    if i < |l.slots| then l.slots[i] else None
  }

  /** `isHost(id)`: `id === host()`. */
  predicate IsHost(l: GuestList, id: string) {
    HostOf(l) == Some(id)
  }

  /** `isPresent(id)`: some slot holds the id. */
  predicate IsPresent(l: GuestList, id: string) {
    IndexOf(l.slots, Some(id)) >= 0
  }

  /** `position(id)`: the 1-based index of the id, 0 when absent. */
  function Position(l: GuestList, id: string): (p: nat)
    ensures p <= |l.slots|
    ensures p == 0 <==> Some(id) !in l.slots
    ensures p > 0 ==> l.slots[p - 1] == Some(id) && Some(id) !in l.slots[..p - 1]
  {
    IndexOf(l.slots, Some(id)) + 1
  }

  /**
   * `getRole(v)` for a slot value `v` (null included, as `computeChanges`
   * passes slot values): unknown when absent, host when it is `host()`,
   * guest otherwise. A null value never equals `host()`.
   */
  function GetRole(l: GuestList, v: Option<string>): (r: Role)
    ensures r == Unknown <==> v !in l.slots
    ensures r == Host <==> v in l.slots && v.Some? && HostOf(l) == v
  {
    if IndexOf(l.slots, v) < 0 then Unknown
    else if v.Some? && HostOf(l) == v then Host
    else Guest
  }

  /** `clear()`: drops every slot, keeping the timestamp. */
  function Clear(l: GuestList): (r: GuestList)
    ensures r.timestamp == l.timestamp && |r.slots| == 0
  {
    l.(slots := [])
  }

  /** Wire form of one slot: the id string, or JSON null for a tombstone. */
  function SlotToJson(slot: Option<string>): Json {
    match slot
    case Some(id) => JStr(id)
    case None => JNull
  }

  function SlotsToJson(slots: seq<Option<string>>): (js: seq<Json>)
    ensures |js| == |slots|
    ensures forall i :: 0 <= i < |slots| ==> js[i] == SlotToJson(slots[i])
  {
    if |slots| == 0 then [] else [SlotToJson(slots[0])] + SlotsToJson(slots[1..])
  }

  /** Reads back an array of strings and nulls; anything else is not a slot sequence. */
  function SlotsFromJson(js: seq<Json>): Option<seq<Option<string>>> {
    if |js| == 0 then Some([])
    else
      var head := match js[0]
        case JStr(id) => Some(Some(id))
        case JNull => Some(None)
        case _ => None;
      match (head, SlotsFromJson(js[1..]))
      case (Some(h), Some(t)) => Some([h] + t)
      case _ => None
  }

  /** `serialize`: the plain object `{timestamp, list}` carrying a copy of the slots. */
  function Serialize(l: GuestList): Json {
    JObj(map["timestamp" := JNum(l.timestamp), "list" := JArr(SlotsToJson(l.slots))])
  }

  /**
   * `deserialize`: builds a list from any object with a numeric `timestamp`
   * and a `list` array of strings and nulls; other fields (such as a
   * message's `type` and `from`) are ignored.
   */
  function Deserialize(j: Json): Option<GuestList> {
    if !j.JObj? then None
    else
      match (Field(j.fields, "timestamp"), Field(j.fields, "list"))
      case (Some(JNum(ts)), Some(JArr(items))) =>
        (match SlotsFromJson(items)
         case Some(slots) => Some(GuestList(ts, slots))
         case None => None)
      case _ => None
  }

  lemma {:induction false} SlotsRoundTrip(slots: seq<Option<string>>)
    ensures SlotsFromJson(SlotsToJson(slots)) == Some(slots)
  {
    if |slots| > 0 {
      SlotsRoundTrip(slots[1..]);
      assert SlotsToJson(slots)[1..] == SlotsToJson(slots[1..]);
      assert [slots[0]] + slots[1..] == slots;
    }
  }

  /** `deserialize(serialize(L))` is L again. */
  lemma SerializeRoundTrip(l: GuestList)
    ensures Deserialize(Serialize(l)) == Some(l)
    ensures Equals(l, Deserialize(Serialize(l)).value)
  {
    SlotsRoundTrip(l.slots);
    EqualsIsEquality(l, l);
  }

  /**
   * `copy`: a list equal to the original. Being a value, it shares no slot
   * storage with it, which is what the source obtains by slicing.
   */
  function Copy(l: GuestList): (r: GuestList)
    ensures r == l && Equals(r, l)
  {
    SerializeRoundTrip(l);
    Deserialize(Serialize(l)).value
  }

  /** `transformationCost(origin, destination)`: how much newer the destination is. */
  function TransformationCost(origin: GuestList, destination: GuestList): int {
    destination.timestamp - origin.timestamp
  }

  /** Transforming back costs the opposite; the costs are equal only for equal timestamps. */
  lemma CostAntisymmetric(a: GuestList, b: GuestList)
    ensures TransformationCost(a, b) == -TransformationCost(b, a)
    ensures TransformationCost(a, b) == TransformationCost(b, a) <==> a.timestamp == b.timestamp
  {
  }

  lemma {:induction false} SlotsMatchIsEquality(x: seq<Option<string>>, y: seq<Option<string>>)
    requires |x| == |y|
    ensures SlotsMatch(x, y) <==> x == y
  {
    if |x| > 0 {
      SlotsMatchIsEquality(x[1..], y[1..]);
      if x[0] == y[0] && x[1..] == y[1..] {
        assert x == [x[0]] + x[1..] && y == [y[0]] + y[1..];
      }
    }
  }

  /** `equals` is exactly value equality, hence reflexive and symmetric. */
  lemma EqualsIsEquality(a: GuestList, b: GuestList)
    ensures Equals(a, b) <==> a == b
    ensures Equals(a, a)
    ensures Equals(a, b) <==> Equals(b, a)
  {
    if |a.slots| == |b.slots| {
      SlotsMatchIsEquality(a.slots, b.slots);
      SlotsMatchIsEquality(b.slots, a.slots);
    }
    SlotsMatchIsEquality(a.slots, a.slots);
  }

  /** `add` never introduces a second slot holding the same id, and is idempotent. */
  lemma AddKeepsIdsDistinct(l: GuestList, guest: string)
    requires DistinctIds(l)
    ensures DistinctIds(Add(l, guest))
    ensures Add(Add(l, guest), guest) == Add(l, guest)
  {
  }

  /**
   * Removing the host promotes `nextHost()`: after `remove(host())` the new
   * host is the old next host.
   */
  lemma {:induction false} RemoveHostYieldsNextHost(l: GuestList)
    requires HostOf(l).Some?
    ensures HostOf(Remove(l, HostOf(l).value)) == NextHost(l)
  {
    var h := HostOf(l);
    var hi := FirstOccupied(l.slots, 0);
    HostIndex(l);
    var r := Remove(l, h.value);
    assert r.slots == l.slots[hi := None];
    var n := FirstOccupied(l.slots, hi + 1);
    assert NextHost(l) == SlotAt(l.slots, n);
    RemovedFirstOccupied(l.slots, hi, n);
  }

  /** `indexOf(host())` is the index of the first occupied slot. */
  lemma HostIndex(l: GuestList)
    requires HostOf(l).Some?
    ensures IndexOf(l.slots, HostOf(l)) == FirstOccupied(l.slots, 0)
  {
    var h := HostOf(l);
    var hi := FirstOccupied(l.slots, 0);
    var i := IndexOf(l.slots, h);
    assert l.slots[hi] == h;
    assert i <= hi by { assert l.slots[..hi + 1][hi] == h; }
  }

  /** Clearing the first occupied slot makes the next occupied one first. */
  lemma RemovedFirstOccupied(slots: seq<Option<string>>, hi: nat, n: nat)
    requires hi < |slots| && hi == FirstOccupied(slots, 0) && n == FirstOccupied(slots, hi + 1)
    ensures var r := slots[hi := None];
      (if FirstOccupied(r, 0) < |r| then r[FirstOccupied(r, 0)] else None) == SlotAt(slots, n)
  {
    var r := slots[hi := None];
    assert forall k :: 0 <= k < n ==> !Occupied(r[k]);
    if n < |slots| {
      assert r[n] == slots[n];
      FirstOccupiedUnique(r, n);
    } else {
      FirstOccupiedNone(r);
    }
  }

  lemma FirstOccupiedNone(slots: seq<Option<string>>)
    requires forall k :: 0 <= k < |slots| ==> !Occupied(slots[k])
    ensures FirstOccupied(slots, 0) == |slots|
  {
  }

  /**
   * `nextHost()` is the first occupied slot after the host's index, and
   * nothing when no later slot is occupied (or there is no host at all).
   */
  lemma NextHostIsNextOccupied(l: GuestList)
    ensures var r := NextHost(l);
      var hi := FirstOccupied(l.slots, 0);
      && (r.Some? ==> Occupied(r))
      && (r.Some? ==> exists i :: hi < i < |l.slots| && l.slots[i] == r && forall k :: hi < k < i ==> !Occupied(l.slots[k]))
      && (r.None? ==> forall k :: hi < k < |l.slots| ==> !Occupied(l.slots[k]))
  {
    if HostOf(l).Some? {
      HostIndex(l);
    }
  }

  /** An occupied index preceded only by unoccupied ones is the first occupied index. */
  lemma FirstOccupiedUnique(slots: seq<Option<string>>, n: nat)
    requires n < |slots| && Occupied(slots[n])
    requires forall k :: 0 <= k < n ==> !Occupied(slots[k])
    ensures FirstOccupied(slots, 0) == n
  {
  }

  /** Exit records for the indices from `i` up to the old length, in index order. */
  function Exits(prev: GuestList, target: GuestList, i: nat): seq<Change>
    requires i <= |prev.slots|
    decreases |prev.slots| - i
  {
    if i == |prev.slots| then []
    else
      var here := if !Occupied(SlotAt(target.slots, i))
        then [Change(prev.slots[i], GetRole(prev, prev.slots[i]), i + 1, Exit)]
        else [];
      here + Exits(prev, target, i + 1)
  }

  /**
   * Enter records for the indices from `i` to the end of the target. The
   * source also tests that the old slot is falsy, which always holds past
   * the old length.
   */
  function Enters(prev: GuestList, target: GuestList, i: nat): seq<Change>
    requires |prev.slots| <= i <= |target.slots|
    decreases |target.slots| - i
  {
    if i == |target.slots| then []
    else
      var here := if !Occupied(SlotAt(prev.slots, i))
        then [Change(target.slots[i], GetRole(target, target.slots[i]), i + 1, Enter)]
        else [];
      here + Enters(prev, target, i + 1)
  }

  /**
   * `computeChanges(target)`: exits for the old indices whose target slot is
   * falsy, then enters for the indices past the old length. It assumes the
   * target only tombstones or appends.
   */
  function ComputeChanges(prev: GuestList, target: GuestList): seq<Change> {
    Exits(prev, target, 0) +
    (if |prev.slots| <= |target.slots| then Enters(prev, target, |prev.slots|) else [])
  }

  /** The enter record the source builds for index `i` of the target. */
  function EnterAt(target: GuestList, i: nat): Change
    requires i < |target.slots|
  {
    Change(target.slots[i], GetRole(target, target.slots[i]), i + 1, Enter)
  }

  /** One enter record for every target index from `from` on, in index order. */
  function EntersFrom(target: GuestList, from: nat): seq<Change>
    requires from <= |target.slots|
  {
    seq(|target.slots| - from, k requires 0 <= k < |target.slots| - from => EnterAt(target, from + k))
  }

  lemma {:induction false} EntersIsEntersFrom(prev: GuestList, target: GuestList, i: nat)
    requires |prev.slots| <= i <= |target.slots|
    ensures Enters(prev, target, i) == EntersFrom(target, i)
    decreases |target.slots| - i
  {
    if i < |target.slots| {
      EntersIsEntersFrom(prev, target, i + 1);
      assert EntersFrom(target, i) == [EnterAt(target, i)] + EntersFrom(target, i + 1);
    }
  }

  /** The exit record for old index `i`. */
  function ExitAt(prev: GuestList, i: nat): Change
    requires i < |prev.slots|
  {
    Change(prev.slots[i], GetRole(prev, prev.slots[i]), i + 1, Exit)
  }

  lemma ExitsUnfold(prev: GuestList, target: GuestList, i: nat)
    requires i < |prev.slots|
    ensures Exits(prev, target, i) ==
      (if !Occupied(SlotAt(target.slots, i)) then [ExitAt(prev, i)] else []) + Exits(prev, target, i + 1)
  {
  }

  predicate PositionsIncreasing(r: seq<Change>) {
    forall k1, k2 :: 0 <= k1 < k2 < |r| ==> r[k1].position < r[k2].position
  }

  /** Every old index from `i` on whose target slot is falsy has a record at its position. */
  predicate CoversFalsySlots(r: seq<Change>, prev: GuestList, target: GuestList, i: nat) {
    forall j :: i <= j < |prev.slots| && !Occupied(SlotAt(target.slots, j)) ==>
      exists k :: 0 <= k < |r| && r[k].position == j + 1
  }

  /** An exit record for an old index past `i` whose target slot is falsy. */
  predicate ExitRecordFor(prev: GuestList, target: GuestList, i: nat, c: Change) {
    && c.action == Exit
    && i < c.position <= |prev.slots|
    && c.id == prev.slots[c.position - 1]
    && c.role == GetRole(prev, c.id)
    && !Occupied(SlotAt(target.slots, c.position - 1))
  }

  lemma {:induction false} ExitsAreExitRecords(prev: GuestList, target: GuestList, i: nat)
    requires i <= |prev.slots|
    ensures forall c :: c in Exits(prev, target, i) ==> ExitRecordFor(prev, target, i, c)
    decreases |prev.slots| - i
  {
    if i < |prev.slots| {
      ExitsAreExitRecords(prev, target, i + 1);
      ExitsUnfold(prev, target, i);
    }
  }

  lemma {:induction false} ExitsIncreasing(prev: GuestList, target: GuestList, i: nat)
    requires i <= |prev.slots|
    ensures PositionsIncreasing(Exits(prev, target, i))
    decreases |prev.slots| - i
  {
    if i < |prev.slots| {
      ExitsIncreasing(prev, target, i + 1);
      ExitsAreExitRecords(prev, target, i + 1);
      ExitsUnfold(prev, target, i);
      var rest := Exits(prev, target, i + 1);
      if !Occupied(SlotAt(target.slots, i)) {
        var r := [ExitAt(prev, i)] + rest;
        forall k1, k2 | 0 <= k1 < k2 < |r| ensures r[k1].position < r[k2].position {
          assert r[k2] == rest[k2 - 1] && rest[k2 - 1] in rest;
          if k1 > 0 {
            assert r[k1] == rest[k1 - 1];
          }
        }
      }
    }
  }

  lemma {:induction false} ExitsComplete(prev: GuestList, target: GuestList, i: nat)
    requires i <= |prev.slots|
    ensures CoversFalsySlots(Exits(prev, target, i), prev, target, i)
    decreases |prev.slots| - i
  {
    if i < |prev.slots| {
      ExitsComplete(prev, target, i + 1);
      ExitsUnfold(prev, target, i);
      var rest := Exits(prev, target, i + 1);
      var r := Exits(prev, target, i);
      forall j | i <= j < |prev.slots| && !Occupied(SlotAt(target.slots, j))
        ensures exists k :: 0 <= k < |r| && r[k].position == j + 1
      {
        if j == i {
          assert r[0].position == j + 1;
        } else if !Occupied(SlotAt(target.slots, i)) {
          var k :| 0 <= k < |rest| && rest[k].position == j + 1;
          assert r[k + 1] == rest[k];
        } else {
          var k :| 0 <= k < |rest| && rest[k].position == j + 1;
          assert r[k] == rest[k];
        }
      }
    }
  }

  /**
   * The exit part of `computeChanges`: records only for old indices whose
   * target slot is falsy, each carrying the old slot value, its role in the
   * old list and its 1-based position; in strictly increasing position
   * order; and one for every such index.
   */
  lemma ExitsCharacterised(prev: GuestList, target: GuestList)
    ensures forall k :: 0 <= k < |Exits(prev, target, 0)| ==> ExitRecordFor(prev, target, 0, Exits(prev, target, 0)[k])
    ensures PositionsIncreasing(Exits(prev, target, 0))
    ensures CoversFalsySlots(Exits(prev, target, 0), prev, target, 0)
  {
    ExitsAreExitRecords(prev, target, 0);
    ExitsIncreasing(prev, target, 0);
    ExitsComplete(prev, target, 0);
    var r := Exits(prev, target, 0);
    assert forall k :: 0 <= k < |r| ==> r[k] in r;
  }

  /** `computeChanges` is the exit part followed by one enter per index past the old length. */
  lemma ComputeChangesShape(prev: GuestList, target: GuestList)
    ensures ComputeChanges(prev, target) ==
      Exits(prev, target, 0) +
      (if |prev.slots| <= |target.slots| then EntersFrom(target, |prev.slots|) else [])
  {
    if |prev.slots| <= |target.slots| {
      EntersIsEntersFrom(prev, target, |prev.slots|);
    }
  }

  /**
   * Against a cleared (empty) list every slot of the target, tombstones
   * included, is reported as an enter at its 1-based position.
   */
  lemma ChangesFromEmptyAreAllEnters(prev: GuestList, target: GuestList)
    requires |prev.slots| == 0
    ensures ComputeChanges(prev, target) == EntersFrom(target, 0)
    ensures forall k :: 0 <= k < |target.slots| ==>
      ComputeChanges(prev, target)[k] == Change(target.slots[k], GetRole(target, target.slots[k]), k + 1, Enter)
  {
    ComputeChangesShape(prev, target);
  }

  lemma {:induction false} NoExitsWhileOccupied(prev: GuestList, target: GuestList, i: nat)
    requires i <= |prev.slots| <= |target.slots|
    requires forall j :: i <= j < |prev.slots| ==> Occupied(target.slots[j])
    ensures Exits(prev, target, i) == []
    decreases |prev.slots| - i
  {
    if i < |prev.slots| {
      NoExitsWhileOccupied(prev, target, i + 1);
    }
  }

  /**
   * Two lists with the same slots, none of them falsy, produce no change
   * records, whatever their timestamps.
   */
  lemma SameOccupiedSlotsNoChanges(prev: GuestList, target: GuestList)
    requires prev.slots == target.slots
    requires forall j :: 0 <= j < |prev.slots| ==> Occupied(prev.slots[j])
    ensures ComputeChanges(prev, target) == []
  {
    NoExitsWhileOccupied(prev, target, 0);
    ComputeChangesShape(prev, target);
  }

  /**
   * A slot that is already a tombstone in both lists is reported again as
   * an exit whose id is null: comparing a list holding a tombstone with
   * itself yields one record.
   */
  lemma TombstoneReportedAsExitAgain()
    ensures var l := GuestList(1, [Some("a"), None]);
      ComputeChanges(l, l) == [Change(None, Guest, 2, Exit)]
  {
    var l := GuestList(1, [Some("a"), None]);
    assert IndexOf(l.slots, None) == 1;
    assert Exits(l, l, 1) == [Change(None, Guest, 2, Exit)];
  }
}

=== FILE: json.dfy ===
/**
 * An abstract JSON value: what `JSON.parse` yields and `JSON.stringify`
 * consumes. Objects are maps (key order carries no meaning for the model);
 * numbers are integers, which is all the protocol puts on the wire.
 */
module Json {
  import opened Base

  datatype Json =
    | JNull
    | JBool(b: bool)
    | JNum(n: int)
    | JStr(s: string)
    | JArr(items: seq<Json>)
    | JObj(fields: map<string, Json>)

  /** JavaScript truthiness of a parsed value (`!value` is its negation). */
  predicate Truthy(j: Json) {
    match j
    case JNull => false
    case JBool(b) => b
    case JNum(n) => n != 0
    case JStr(s) => s != ""
    case JArr(_) => true
    case JObj(_) => true
  }

  /** Property lookup `obj[key]`: `None` is `undefined`. */
  function Field(fields: map<string, Json>, key: string): (r: Option<Json>)
    ensures r.Some? <==> key in fields
    ensures r.Some? ==> r.value == fields[key]
  {
    if key in fields then Some(fields[key]) else None
  }

  /** The decimal digit for `d`. */
  function Digit(d: nat): char
    requires d < 10
  {
    "0123456789"[d]
  }

  /** A character `String(n)` can produce for an integer. */
  predicate NumeralChar(c: char) {
    c == '-' || '0' <= c <= '9'
  }

  /** The decimal numeral of a natural number. */
  function Digits(n: nat): (r: string)
    ensures |r| > 0 && forall i :: 0 <= i < |r| ==> '0' <= r[i] <= '9'
    decreases n
  {
    if n < 10 then [Digit(n)] else Digits(n / 10) + [Digit(n % 10)]
  }

  /** `String(n)` for an integer: a sign for negatives, then the digits. */
  function NumberText(n: int): (r: string)
    ensures |r| > 0 && forall i :: 0 <= i < |r| ==> NumeralChar(r[i])
    ensures r[0] == '-' <==> n < 0
  {
    if n < 0 then "-" + Digits(-n) else Digits(n)
  }

  /** The texts joined with commas, as `Array.prototype.join()` does. */
  function JoinWithCommas(parts: seq<string>): (r: string)
    ensures |parts| == 1 ==> r == parts[0]
    decreases |parts|
  {
    if |parts| == 0 then ""
    else if |parts| == 1 then parts[0]
    else parts[0] + "," + JoinWithCommas(parts[1..])
  }

  /**
   * `String(value)`, the text a template literal substitutes for a parsed
   * value: arrays join their elements with commas (a `null` element adds
   * nothing), and every object reads `[object Object]`.
   */
  function Text(j: Json): string
    decreases j
  {
    match j
    case JNull => "null"
    case JBool(b) => if b then "true" else "false"
    case JNum(n) => NumberText(n)
    case JStr(s) => s
    case JArr(items) =>
      JoinWithCommas(seq(|items|, i requires 0 <= i < |items| => if items[i].JNull? then "" else Text(items[i])))
    case JObj(_) => "[object Object]"
  }

  /**
   * A string is its own text, and so is an array holding only that string
   * (at any depth); a number reads as a numeral, so it never reads as a word.
   */
  lemma {:induction false} TextOfWrapped(t: string, depth: nat)
    ensures Text(Wrap(JStr(t), depth)) == t
    decreases depth
  {
    if depth > 0 {
      TextOfWrapped(t, depth - 1);
      var inner := Wrap(JStr(t), depth - 1);
      var parts := seq(1, i requires 0 <= i < 1 => if [inner][i].JNull? then "" else Text([inner][i]));
      assert parts == [Text(inner)];
    }
  }

  /** `depth` array brackets around `j`. */
  function Wrap(j: Json, depth: nat): Json
    decreases depth
  {
    if depth == 0 then j else JArr([Wrap(j, depth - 1)])
  }
}

=== FILE: participation.dfy ===
/**
 * The membership protocol of one peer: role election (unknown, then host or
 * guest; a guest takes over when the host leaves), the canonical guest list,
 * and the participant events it reports upwards. Each handler of the source
 * is a function from state to state. Promise continuations are explicit:
 * `jobs` is the microtask queue, drained after every handler by `Drain`, and
 * the two waiter queues park continuations until an id connects or becomes
 * present. The heartbeat timer is the `heartbeat` flag plus a `Heartbeat`
 * input that rebroadcasts the list.
 */
module Participation {
  import opened Base
  import opened Json
  import opened GuestLists
  import Rtc

  /** A continuation ready to run in the microtask queue. */
  datatype Job =
    | AnnounceEnter(id: Option<string>, role: Role, position: int)  // emit enterparticipant, then confirm presence
    | AnnounceStream(peer: string, stream: nat)                    // emit participantstream

  /** A continuation parked until `id` is confirmed. */
  datatype Waiter = Waiter(id: Option<string>, job: Job)

  /** Events reported to the consumer. */
  datatype Event =
    | Connected(me: string)
    | Upgrade(role: Role)
    | EnterParticipant(id: Option<string>, role: Role, position: int)
    | ExitParticipant(id: Option<string>, role: Role, position: int)
    | ParticipantStream(peer: string, stream: nat)
    | ParticipantMessage(from: Option<Json>, message: Option<Json>)

  /** Why a handler stops by throwing. */
  datatype Failure =
    | Panicked(reason: Rtc.Panic)   // inbound framing rejected by the transport
    | EqualCosts                    // negotiation between different lists with equal timestamps
    | MalformedList                 // a list message without a numeric timestamp and a string-or-null array
    | Unmodelled(handler: string)   // a message type naming one of the transport-event handlers

  datatype State = State(
    transport: Rtc.Transport,
    role: Role,
    list: GuestList,
    streams: map<string, seq<nat>>,
    connectionWaiters: seq<Waiter>,
    presenceWaiters: seq<Waiter>,
    jobs: seq<Job>,
    events: seq<Event>,
    sent: seq<Rtc.Delivery>,
    heartbeat: bool)

  function Me(s: State): string {
    s.transport.me
  }

  predicate Negotiating(s: State) {
    s.role == Unknown
  }

  /** Role, list and transport are untouched. */
  predicate SameCore(s: State, r: State) {
    r.role == s.role && r.list == s.list && r.transport == s.transport && r.heartbeat == s.heartbeat
  }

  /**
   * What `connect()` sets up once the transport has an identity: the list
   * `[me]` stamped with the entry time, empty queues, and `connected`.
   */
  function Connect(transport: Rtc.Transport, enterTime: int): (s: State)
    ensures s.role == Unknown && !s.heartbeat
    ensures s.list.timestamp == enterTime && s.list.slots == [Some(transport.me)]
    ensures HostOf(s.list) == (if transport.me == "" then None else Some(transport.me))
    ensures s.events == [Connected(transport.me)]
  {
    State(transport, Unknown, GuestList(enterTime, [Some(transport.me)]), map[], [], [], [], [Connected(transport.me)], [], false)
  }

  /** `{type: 'content', content}`. */
  function ContentMessage(content: Json): map<string, Json> {
    map["type" := JStr("content"), "content" := content]
  }

  /** `{type: 'list'}` with the serialised list's fields assigned onto it. */
  function ListMessage(l: GuestList): map<string, Json> {
    Serialize(l).fields["type" := JStr("list")]
  }

  /** `send(target, content)`: the broadcast sentinel `*` or one peer. */
  function Send(s: State, target: string, content: Json): (r: State)
    ensures SameCore(s, r) && r.events == s.events && r.jobs == s.jobs
    ensures target == "*" ==> r.sent == s.sent + Rtc.Broadcast(s.transport, ContentMessage(content))
    ensures target != "*" ==> r.sent == s.sent + Rtc.Send(s.transport, target, ContentMessage(content))
  {
    var message := ContentMessage(content);
    var out := if target == "*" then Rtc.Broadcast(s.transport, message) else Rtc.Send(s.transport, target, message);
    s.(sent := s.sent + out)
  }

  /** `_broadcastList`: the current list to every connected peer. */
  function BroadcastList(s: State): (r: State)
    ensures SameCore(s, r) && r.events == s.events && r.jobs == s.jobs
    ensures r.connectionWaiters == s.connectionWaiters && r.presenceWaiters == s.presenceWaiters
    ensures r.sent == s.sent + Rtc.Broadcast(s.transport, ListMessage(s.list))
  {
    s.(sent := s.sent + Rtc.Broadcast(s.transport, ListMessage(s.list)))
  }

  /**
   * `_setRole`: on an actual change, record the role, emit `upgrade` and,
   * for `host`, start the heartbeat; otherwise do nothing.
   */
  function SetRole(s: State, newRole: Role): (r: State)
    ensures r.role == newRole && r.list == s.list && r.transport == s.transport
    ensures r.jobs == s.jobs && r.sent == s.sent
    ensures r.connectionWaiters == s.connectionWaiters && r.presenceWaiters == s.presenceWaiters
    ensures newRole == s.role ==> r == s
    ensures newRole != s.role ==> r.events == s.events + [Upgrade(newRole)]
    ensures r.heartbeat <==> s.heartbeat || (newRole != s.role && newRole == Host)
  {
    if newRole != s.role then
      s.(role := newRole, events := s.events + [Upgrade(newRole)], heartbeat := s.heartbeat || newRole == Host)
    else s
  }

  /** Connected directly, or the local peer itself. */
  predicate Reachable(s: State, id: Option<string>) {
    id == Some(Me(s)) || (id.Some? && Rtc.IsConnected(s.transport, id.value))
  }

  /** `_waitForConnection(id).then(job)`: queue the job now, or park it until `id` connects. */
  function WaitForConnection(s: State, id: Option<string>, job: Job): (r: State)
    ensures SameCore(s, r) && r.events == s.events && r.sent == s.sent && r.presenceWaiters == s.presenceWaiters
    ensures Reachable(s, id) ==> r.jobs == s.jobs + [job] && r.connectionWaiters == s.connectionWaiters
    ensures !Reachable(s, id) ==> r.jobs == s.jobs && r.connectionWaiters == s.connectionWaiters + [Waiter(id, job)]
  {
    if Reachable(s, id) then s.(jobs := s.jobs + [job])
    else s.(connectionWaiters := s.connectionWaiters + [Waiter(id, job)])
  }

  /**
   * The waiters whose id is `target`, released in queue order, and the
   * others, kept in queue order.
   */
  function Release(q: seq<Waiter>, target: Option<string>): (r: (seq<Job>, seq<Waiter>))
    ensures |r.0| + |r.1| == |q|
  {
    if |q| == 0 then ([], [])
    else
      var rest := Release(q[1..], target);
      if q[0].id == target then ([q[0].job] + rest.0, rest.1)
      else (rest.0, [q[0]] + rest.1)
  }

  /**
   * Releasing distributes over concatenation: released jobs and kept
   * waiters each keep their relative queue order.
   */
  lemma ReleaseConcat(a: seq<Waiter>, b: seq<Waiter>, target: Option<string>)
    ensures Release(a + b, target).0 == Release(a, target).0 + Release(b, target).0
    ensures Release(a + b, target).1 == Release(a, target).1 + Release(b, target).1
  {
    ReleaseConcatJobs(a, b, target);
    ReleaseConcatKept(a, b, target);
  }

  lemma {:induction false} ReleaseConcatJobs(a: seq<Waiter>, b: seq<Waiter>, target: Option<string>)
    ensures Release(a + b, target).0 == Release(a, target).0 + Release(b, target).0
  {
    if |a| == 0 {
      assert a + b == b;
    } else {
      var ab := a + b;
      assert ab[0] == a[0] && ab[1..] == a[1..] + b;
      ReleaseConcatJobs(a[1..], b, target);
      ReleaseHead(ab, target);
      ReleaseHead(a, target);
      var h: seq<Job> := if a[0].id == target then [a[0].job] else [];
      var x := Release(a[1..], target).0;
      var y := Release(b, target).0;
      assert h + (x + y) == (h + x) + y;
    }
  }

  lemma {:induction false} ReleaseConcatKept(a: seq<Waiter>, b: seq<Waiter>, target: Option<string>)
    ensures Release(a + b, target).1 == Release(a, target).1 + Release(b, target).1
  {
    if |a| == 0 {
      assert a + b == b;
    } else {
      var ab := a + b;
      assert ab[0] == a[0] && ab[1..] == a[1..] + b;
      ReleaseConcatKept(a[1..], b, target);
      ReleaseHead(ab, target);
      ReleaseHead(a, target);
      var h: seq<Waiter> := if a[0].id == target then [] else [a[0]];
      var x := Release(a[1..], target).1;
      var y := Release(b, target).1;
      assert h + (x + y) == (h + x) + y;
    }
  }

  /** Releasing a non-empty queue: its head, then the rest. */
  lemma ReleaseHead(q: seq<Waiter>, target: Option<string>)
    requires |q| > 0
    ensures Release(q, target).0 == (if q[0].id == target then [q[0].job] else []) + Release(q[1..], target).0
    ensures Release(q, target).1 == (if q[0].id == target then [] else [q[0]]) + Release(q[1..], target).1
  {
    if q[0].id != target {
      assert [] + Release(q[1..], target).0 == Release(q[1..], target).0;
    } else {
      assert [] + Release(q[1..], target).1 == Release(q[1..], target).1;
    }
  }

  /**
   * Releasing resolves every waiter for `target` and keeps exactly the
   * others.
   */
  lemma {:induction false} ReleaseMembers(q: seq<Waiter>, target: Option<string>)
    ensures forall w :: w in Release(q, target).1 <==> w in q && w.id != target
    ensures forall w :: w in q && w.id == target ==> w.job in Release(q, target).0
  {
    if |q| > 0 {
      ReleaseMembers(q[1..], target);
      assert q == [q[0]] + q[1..];
    }
  }

  lemma ReleaseSnoc(p: seq<Waiter>, w: Waiter, target: Option<string>)
    ensures Release(p + [w], target).0 == Release(p, target).0 + (if w.id == target then [w.job] else [])
    ensures Release(p + [w], target).1 == Release(p, target).1 + (if w.id == target then [] else [w])
  {
    ReleaseConcat(p, [w], target);
    assert [w][1..] == [];
    var rw := Release([w], target);
    assert Release([], target).0 == [] && Release([], target).1 == [];
    assert rw.0 == (if w.id == target then [w.job] else []);
    assert rw.1 == (if w.id == target then [] else [w]);
  }

  /**
   * The queue scan of `_confirmConnection` and `_confirmPresence`: shift
   * each of the original entries once, resolving those for `target` and
   * pushing the others back. It computes `Release`.
   */
  method ConfirmWaiting(q: seq<Waiter>, target: Option<string>) returns (released: seq<Job>, queue: seq<Waiter>)
    ensures released == Release(q, target).0 && queue == Release(q, target).1
  {
    queue := q;
    released := [];
    var i := 0;
    var l := |queue|;
    while i < l
      invariant 0 <= i <= l == |q|
      invariant queue == q[i..] + Release(q[..i], target).1
      invariant released == Release(q[..i], target).0
    {
      assert queue[0] == q[i] && queue[1..] == q[i + 1..] + Release(q[..i], target).1;
      var head := queue[0];
      queue := queue[1..];
      if head.id != target {
        queue := queue + [head];
      } else {
        released := released + [head.job];
      }
      ReleaseSnoc(q[..i], q[i], target);
      assert q[..i + 1] == q[..i] + [q[i]];
      i := i + 1;
    }
    assert q[..l] == q;
  }

  /** `_confirmConnection(id)`: release every connection waiter for `id`. */
  function ConfirmConnection(s: State, id: string): (r: State)
    ensures SameCore(s, r) && r.events == s.events && r.sent == s.sent && r.presenceWaiters == s.presenceWaiters
    ensures r.jobs == s.jobs + Release(s.connectionWaiters, Some(id)).0
    ensures r.connectionWaiters == Release(s.connectionWaiters, Some(id)).1
  {
    var (released, kept) := Release(s.connectionWaiters, Some(id));
    s.(connectionWaiters := kept, jobs := s.jobs + released)
  }

  /** `_confirmPresence(id)`: release every presence waiter for `id`. */
  function ConfirmPresence(s: State, id: Option<string>): (r: State)
    ensures SameCore(s, r) && r.events == s.events && r.sent == s.sent && r.connectionWaiters == s.connectionWaiters
    ensures r.jobs == s.jobs + Release(s.presenceWaiters, id).0
    ensures r.presenceWaiters == Release(s.presenceWaiters, id).1
    ensures |r.jobs| + |r.presenceWaiters| == |s.jobs| + |s.presenceWaiters|
  {
    var (released, kept) := Release(s.presenceWaiters, id);
    s.(presenceWaiters := kept, jobs := s.jobs + released)
  }

  /** One change record: an exit is emitted at once, an enter waits for the connection. */
  function InformOne(s: State, c: Change): (r: State)
    ensures SameCore(s, r) && r.sent == s.sent && r.presenceWaiters == s.presenceWaiters
  {
    if c.action == Enter then WaitForConnection(s, c.id, AnnounceEnter(c.id, c.role, c.position))
    else s.(events := s.events + [ExitParticipant(c.id, c.role, c.position)])
  }

  /** `_informChanges`: every change record in order. */
  function InformChanges(s: State, changes: seq<Change>): (r: State)
    ensures SameCore(s, r) && r.sent == s.sent && r.presenceWaiters == s.presenceWaiters
    decreases |changes|
  {
    if |changes| == 0 then s else InformChanges(InformOne(s, changes[0]), changes[1..])
  }

  /**
   * `_updateList`: diff the current list against the next one, install the
   * next one, and report the changes unless still negotiating.
   */
  function UpdateList(s: State, next: GuestList): (r: State)
    ensures r.list == next && r.role == s.role && r.transport == s.transport && r.heartbeat == s.heartbeat
    ensures r.sent == s.sent && r.presenceWaiters == s.presenceWaiters
    ensures Negotiating(s) ==> r == s.(list := next)
  {
    var changes := ComputeChanges(s.list, next);
    var installed := s.(list := next);
    if !Negotiating(installed) then InformChanges(installed, changes) else installed
  }

  /**
   * `_onConnect(id)`, after the transport has recorded the peer: a non-guest
   * adds the id to a copy of its list, installs it and broadcasts it; every
   * peer then releases the connection waiters for the id.
   */
  function OnConnect(s: State, id: string): State {
    var s1 := if s.role != Guest then BroadcastList(UpdateList(s, Add(Copy(s.list), id))) else s;
    ConfirmConnection(s1, id)
  }

  /**
   * `_onStream(id, stream)`: remember the stream, then announce it once the
   * id is the local one or present in a settled list.
   */
  function OnStream(s: State, id: string, stream: nat): (r: State)
    ensures SameCore(s, r) && r.events == s.events && r.sent == s.sent && r.connectionWaiters == s.connectionWaiters
    ensures GetStreams(r, id) == Some((if GetStreams(s, id).Some? then GetStreams(s, id).value else []) + [stream])
    ensures forall other :: other != id ==> GetStreams(r, other) == GetStreams(s, other)
    ensures id == Me(s) || (!Negotiating(s) && IsPresent(s.list, id)) ==>
      r.jobs == s.jobs + [AnnounceStream(id, stream)] && r.presenceWaiters == s.presenceWaiters
    ensures !(id == Me(s) || (!Negotiating(s) && IsPresent(s.list, id))) ==>
      r.jobs == s.jobs && r.presenceWaiters == s.presenceWaiters + [Waiter(Some(id), AnnounceStream(id, stream))]
  {
    var known := if id in s.streams then s.streams[id] else [];
    var s1 := s.(streams := s.streams[id := known + [stream]]);
    var job := AnnounceStream(id, stream);
    if id == Me(s) || (!Negotiating(s) && IsPresent(s.list, id)) then s1.(jobs := s1.jobs + [job])
    else s1.(presenceWaiters := s1.presenceWaiters + [Waiter(Some(id), job)])
  }

  /**
   * `getStreams(id)`: a copy of the streams received from `id`, in arrival
   * order; `None` for an id that never sent one, where the source throws.
   */
  function GetStreams(s: State, id: string): (r: Option<seq<nat>>)
    ensures r.Some? <==> id in s.streams
  {
    if id in s.streams then Some(s.streams[id]) else None
  }

  /**
   * `_takeover(participant)`: a host tombstones the leaver; a guest does so
   * only when the leaver is the host, and then becomes host if it was next
   * in line; a peer still negotiating does nothing.
   */
  function Takeover(s: State, participant: string): State {
    var isHost := IsHost(s.list, participant);
    var meIsNext := NextHost(s.list) == Some(Me(s));
    if s.role == Host then UpdateList(s, Remove(Copy(s.list), participant))
    else if s.role == Guest && isHost then
      var s2 := UpdateList(s, Remove(Copy(s.list), participant));
      if meIsNext then SetRole(s2, Host) else s2
    else s
  }

  /** `_onClose(id)`, after the transport has forgotten the peer. */
  function OnClose(s: State, id: string): State {
    var s1 := Takeover(s, id);
    if s1.role != Guest then BroadcastList(s1) else s1
  }

  /**
   * `_selectList(a, b)`: the list reached by the cheaper transformation;
   * equal costs throw.
   */
  function SelectList(a: GuestList, b: GuestList): (r: Result<GuestList, Failure>)
    ensures r.Failure? <==> a.timestamp == b.timestamp
    ensures r.Failure? ==> r.error == EqualCosts
    ensures r.Success? ==> r.value == (if b.timestamp < a.timestamp then b else a)
  {
    var costAB := TransformationCost(a, b);
    var costBA := TransformationCost(b, a);
    if costAB == costBA then Failure(EqualCosts)
    else Success(if costAB < costBA then b else a)
  }

  /** `list.isHost(message.from)`: strict equality of the sender with `host()`. */
  predicate IsHostFrom(l: GuestList, from: Option<Json>) {
    match from
    case None => HostOf(l).None?
    case Some(JStr(id)) => HostOf(l) == Some(id)
    case Some(_) => false
  }

  /**
   * `_onlist(message)`. Once the role is settled only the host's lists
   * count; an identical list is ignored; while negotiating the older list
   * wins and fixes the role, the local list is cleared, and the winner is
   * installed; otherwise the remote list is installed.
   */
  function OnList(s: State, message: map<string, Json>): Result<State, Failure> {
    if !Negotiating(s) && !IsHostFrom(s.list, Field(message, "from")) then Success(s)
    else
      match Deserialize(JObj(message))
      case None => Failure(MalformedList)
      case Some(remote) =>
        if Equals(s.list, remote) then Success(s)
        else if Negotiating(s) then
          match SelectList(Copy(s.list), remote)
          case Failure(e) => Failure(e)
          case Success(next) =>
            var s2 := SetRole(s, if Equals(next, s.list) then Host else Guest);
            Success(UpdateList(s2.(list := Clear(s2.list)), next))
        else Success(UpdateList(s, remote))
  }

  /** `_oncontent(message)`: the payload goes up with its sender. */
  function OnContent(s: State, message: map<string, Json>): (r: State)
    ensures SameCore(s, r) && r.jobs == s.jobs && r.sent == s.sent
    ensures r.events == s.events + [ParticipantMessage(Field(message, "from"), Field(message, "content"))]
  {
    s.(events := s.events + [ParticipantMessage(Field(message, "from"), Field(message, "content"))])
  }

  /** Handler names the source reaches through `_on${type}` besides `list` and `content`. */
  predicate NamesTransportHandler(t: string) {
    t == "Connect" || t == "Stream" || t == "Close" || t == "Message"
  }

  /** The text `_on${type}` substitutes for the message type; a missing type reads `undefined`. */
  function TypeName(message: map<string, Json>): string {
    match Field(message, "type")
    case None => "undefined"
    case Some(t) => Text(t)
  }

  /**
   * `_onMessage`: dispatch on the text of the message type, whatever JSON
   * value it is; a type naming no handler is dropped with a warning.
   */
  function OnMessage(s: State, message: map<string, Json>): (r: Result<State, Failure>)
    ensures TypeName(message) == "content" ==> r == Success(OnContent(s, message))
    ensures TypeName(message) == "list" ==> r == OnList(s, message)
    ensures NamesTransportHandler(TypeName(message)) ==> r == Failure(Unmodelled("_on" + TypeName(message)))
    ensures r.Failure? ==> TypeName(message) == "list" || NamesTransportHandler(TypeName(message))
    ensures TypeName(message) != "list" && TypeName(message) != "content" && !NamesTransportHandler(TypeName(message)) ==>
      r == Success(s)
  {
    var t := TypeName(message);
    if t == "list" then OnList(s, message)
    else if t == "content" then Success(OnContent(s, message))
    else if NamesTransportHandler(t) then Failure(Unmodelled("_on" + t))
    else Success(s)
  }

  /** The heartbeat timer firing: a started heartbeat rebroadcasts the list. */
  function Heartbeat(s: State): (r: State)
    ensures SameCore(s, r) && r.events == s.events && r.jobs == s.jobs
    ensures r.connectionWaiters == s.connectionWaiters && r.presenceWaiters == s.presenceWaiters
    ensures r.sent == s.sent + (if s.heartbeat then Rtc.Broadcast(s.transport, ListMessage(s.list)) else [])
  {
    if s.heartbeat then BroadcastList(s) else s
  }

  /** Runs one microtask. */
  function RunJob(s: State, job: Job): (r: State)
    ensures SameCore(s, r) && r.sent == s.sent && r.connectionWaiters == s.connectionWaiters
    ensures |r.jobs| + |r.presenceWaiters| == |s.jobs| + |s.presenceWaiters|
    ensures job.AnnounceEnter? ==>
      && r.events == s.events + [EnterParticipant(job.id, job.role, job.position)]
      && r.jobs == s.jobs + Release(s.presenceWaiters, job.id).0
      && r.presenceWaiters == Release(s.presenceWaiters, job.id).1
    ensures job.AnnounceStream? ==>
      r.events == s.events + [ParticipantStream(job.peer, job.stream)] && r.jobs == s.jobs && r.presenceWaiters == s.presenceWaiters
  {
    match job
    case AnnounceEnter(id, role, position) =>
      ConfirmPresence(s.(events := s.events + [EnterParticipant(id, role, position)]), id)
    case AnnounceStream(id, stream) =>
      s.(events := s.events + [ParticipantStream(id, stream)])
  }

  /** The microtask checkpoint: run queued jobs, including those they release, until none is left. */
  function Drain(s: State): (r: State)
    ensures SameCore(s, r) && r.sent == s.sent && r.connectionWaiters == s.connectionWaiters
    ensures r.jobs == []
    ensures s.jobs == [] ==> r == s
    decreases |s.jobs| + |s.presenceWaiters|
  {
    if |s.jobs| == 0 then s
    else Drain(RunJob(s.(jobs := s.jobs[1..]), s.jobs[0]))
  }

  /** What the transport hands to this peer, and the consumer's own calls. */
  datatype Input =
    | PeerJoined(id: string)
    | PeerStream(id: string, stream: nat)
    | PeerData(data: Option<Json>)
    | PeerLeft(id: string)
    | SendContent(target: string, content: Json)
    | HeartbeatTick

  /** One macrotask: the transport's bookkeeping, the handler, then the microtask checkpoint. */
  function Step(s: State, input: Input): Result<State, Failure> {
    match input
    case PeerJoined(id) => Success(Drain(OnConnect(s.(transport := Rtc.OnPeer(s.transport, id).0), id)))
    case PeerStream(id, stream) => Success(Drain(OnStream(s, id, stream)))
    case PeerData(data) =>
      (match Rtc.OnData(data)
       case Failure(p) => Failure(Panicked(p))
       case Success(ev) =>
         match OnMessage(s, ev.message)
         case Failure(e) => Failure(e)
         case Success(s1) => Success(Drain(s1)))
    case PeerLeft(id) => Success(Drain(OnClose(s.(transport := Rtc.OnClose(s.transport, id).0), id)))
    case SendContent(target, content) => Success(Drain(Send(s, target, content)))
    case HeartbeatTick => Success(Drain(Heartbeat(s)))
  }
}

=== FILE: participation_properties.dfy ===
/**
 * Properties of the membership protocol: how change records are reported,
 * how roles may change, how negotiation is resolved, what connect and close
 * do to the list, and that the announcement of an entering participant is
 * deferred until that participant is reachable.
 */
module ParticipationProperties {
  import opened Base
  import opened Json
  import opened GuestLists
  import opened Participation
  import Rtc

  predicate ExitReported(changes: seq<Change>, e: Event) {
    exists c :: c in changes && c.action == Exit && e == ExitParticipant(c.id, c.role, c.position)
  }

  predicate EnterQueued(s: State, changes: seq<Change>, j: Job) {
    exists c :: c in changes && c.action == Enter && j == AnnounceEnter(c.id, c.role, c.position) && Reachable(s, c.id)
  }

  predicate EnterParked(s: State, changes: seq<Change>, w: Waiter) {
    exists c :: c in changes && c.action == Enter && w == Waiter(c.id, AnnounceEnter(c.id, c.role, c.position)) && !Reachable(s, c.id)
  }

  /** Only appends to the event log, the job queue and the connection waiters. */
  predicate Appends(s: State, r: State) {
    s.events <= r.events && s.jobs <= r.jobs && s.connectionWaiters <= r.connectionWaiters
  }

  /** Where one change record ends up. */
  predicate Routed(s: State, r: State, c: Change) {
    && Appends(s, r)
    && (c.action == Exit ==> ExitParticipant(c.id, c.role, c.position) in r.events[|s.events|..])
    && (c.action == Enter && Reachable(s, c.id) ==> AnnounceEnter(c.id, c.role, c.position) in r.jobs[|s.jobs|..])
    && (c.action == Enter && !Reachable(s, c.id) ==>
          Waiter(c.id, AnnounceEnter(c.id, c.role, c.position)) in r.connectionWaiters[|s.connectionWaiters|..])
  }

  lemma AppendsTransitive(a: State, b: State, c: State)
    requires Appends(a, b) && Appends(b, c)
    ensures Appends(a, c)
  {
  }

  lemma RoutedLater(s: State, m: State, r: State, c: Change)
    requires Appends(s, m) && Appends(m, r) && Routed(s, m, c)
    ensures Routed(s, r, c)
  {
    assert s.events <= m.events <= r.events;
    assert m.events[|s.events|..] <= r.events[|s.events|..];
    assert m.jobs[|s.jobs|..] <= r.jobs[|s.jobs|..];
    assert m.connectionWaiters[|s.connectionWaiters|..] <= r.connectionWaiters[|s.connectionWaiters|..];
  }

  lemma RoutedEarlier(s: State, m: State, r: State, c: Change)
    requires Appends(s, m) && Appends(m, r) && Routed(m, r, c) && SameCore(s, m)
    ensures Routed(s, r, c)
  {
    assert r.events[|m.events|..] == r.events[|s.events|..][|m.events| - |s.events|..];
    assert r.jobs[|m.jobs|..] == r.jobs[|s.jobs|..][|m.jobs| - |s.jobs|..];
    assert r.connectionWaiters[|m.connectionWaiters|..] ==
      r.connectionWaiters[|s.connectionWaiters|..][|m.connectionWaiters| - |s.connectionWaiters|..];
  }

  /** Every change record is routed. */
  predicate RoutesAll(s: State, r: State, changes: seq<Change>) {
    forall c :: c in changes ==> Routed(s, r, c)
  }

  /** Every event added is the exit of one of the changes. */
  predicate OnlyExits(s: State, r: State, changes: seq<Change>) {
    forall k :: |s.events| <= k < |r.events| ==> ExitReported(changes, r.events[k])
  }

  /** Every job added announces a reachable enter of one of the changes. */
  predicate OnlyQueued(s: State, r: State, changes: seq<Change>) {
    forall k :: |s.jobs| <= k < |r.jobs| ==> EnterQueued(s, changes, r.jobs[k])
  }

  /** Every waiter added parks an unreachable enter of one of the changes. */
  predicate OnlyParked(s: State, r: State, changes: seq<Change>) {
    forall k :: |s.connectionWaiters| <= k < |r.connectionWaiters| ==> EnterParked(s, changes, r.connectionWaiters[k])
  }

  /** One record per change. */
  predicate OnePerChange(s: State, r: State, changes: seq<Change>) {
    (|r.events| - |s.events|) + (|r.jobs| - |s.jobs|) + (|r.connectionWaiters| - |s.connectionWaiters|) == |changes|
  }

  /** The effect of one change record. */
  lemma InformOneEffect(s: State, c: Change)
    ensures var r := InformOne(s, c);
      && Appends(s, r) && Routed(s, r, c) && OnePerChange(s, r, [c])
      && OnlyExits(s, r, [c]) && OnlyQueued(s, r, [c]) && OnlyParked(s, r, [c])
  {
    var r := InformOne(s, c);
    assert c in [c];
    if c.action == Enter {
      if Reachable(s, c.id) {
        assert r.jobs[|s.jobs|..] == [AnnounceEnter(c.id, c.role, c.position)];
      } else {
        assert r.connectionWaiters[|s.connectionWaiters|..] == [Waiter(c.id, AnnounceEnter(c.id, c.role, c.position))];
      }
    } else {
      assert r.events[|s.events|..] == [ExitParticipant(c.id, c.role, c.position)];
    }
  }

  lemma RoutesAllStep(s: State, m: State, r: State, changes: seq<Change>)
    requires |changes| > 0 && Appends(s, m) && Appends(m, r) && SameCore(s, m)
    requires Routed(s, m, changes[0]) && RoutesAll(m, r, changes[1..])
    ensures RoutesAll(s, r, changes)
  {
    forall d | d in changes ensures Routed(s, r, d) {
      if d == changes[0] {
        RoutedLater(s, m, r, d);
      } else {
        assert d in changes[1..];
        RoutedEarlier(s, m, r, d);
      }
    }
  }

  lemma OnlyExitsStep(s: State, m: State, r: State, changes: seq<Change>)
    requires |changes| > 0 && Appends(s, m) && Appends(m, r)
    requires OnlyExits(s, m, [changes[0]]) && OnlyExits(m, r, changes[1..])
    ensures OnlyExits(s, r, changes)
  {
    forall k | |s.events| <= k < |r.events| ensures ExitReported(changes, r.events[k]) {
      if k < |m.events| {
        assert r.events[k] == m.events[k];
        assert ExitReported([changes[0]], m.events[k]);
      } else {
        assert ExitReported(changes[1..], r.events[k]);
      }
    }
  }

  lemma OnlyQueuedStep(s: State, m: State, r: State, changes: seq<Change>)
    requires |changes| > 0 && Appends(s, m) && Appends(m, r) && SameCore(s, m)
    requires OnlyQueued(s, m, [changes[0]]) && OnlyQueued(m, r, changes[1..])
    ensures OnlyQueued(s, r, changes)
  {
    forall k | |s.jobs| <= k < |r.jobs| ensures EnterQueued(s, changes, r.jobs[k]) {
      if k < |m.jobs| {
        assert r.jobs[k] == m.jobs[k];
        assert EnterQueued(s, [changes[0]], m.jobs[k]);
      } else {
        assert EnterQueued(m, changes[1..], r.jobs[k]);
      }
    }
  }

  lemma OnlyParkedStep(s: State, m: State, r: State, changes: seq<Change>)
    requires |changes| > 0 && Appends(s, m) && Appends(m, r) && SameCore(s, m)
    requires OnlyParked(s, m, [changes[0]]) && OnlyParked(m, r, changes[1..])
    ensures OnlyParked(s, r, changes)
  {
    forall k | |s.connectionWaiters| <= k < |r.connectionWaiters| ensures EnterParked(s, changes, r.connectionWaiters[k]) {
      if k < |m.connectionWaiters| {
        assert r.connectionWaiters[k] == m.connectionWaiters[k];
        assert EnterParked(s, [changes[0]], m.connectionWaiters[k]);
      } else {
        assert EnterParked(m, changes[1..], r.connectionWaiters[k]);
      }
    }
  }

  /**
   * `_informChanges`: each exit is emitted at once; each enter becomes a
   * queued announcement when its id is the local one or connected, and a
   * parked connection waiter otherwise; nothing else is added.
   */
  lemma {:induction false} InformChangesEffect(s: State, changes: seq<Change>)
    ensures var r := InformChanges(s, changes);
      && Appends(s, r) && OnePerChange(s, r, changes) && RoutesAll(s, r, changes)
      && OnlyExits(s, r, changes) && OnlyQueued(s, r, changes) && OnlyParked(s, r, changes)
    decreases |changes|
  {
    if |changes| > 0 {
      var c := changes[0];
      var m := InformOne(s, c);
      var r := InformChanges(s, changes);
      assert r == InformChanges(m, changes[1..]);
      InformOneEffect(s, c);
      InformChangesEffect(m, changes[1..]);
      AppendsTransitive(s, m, r);
      RoutesAllStep(s, m, r, changes);
      OnlyExitsStep(s, m, r, changes);
      OnlyQueuedStep(s, m, r, changes);
      OnlyParkedStep(s, m, r, changes);
    }
  }

  /** `_updateList` keeps the role and only appends to the log and the queues. */
  lemma UpdateListAppends(s: State, next: GuestList)
    ensures Appends(s, UpdateList(s, next))
  {
    if !Negotiating(s) {
      InformChangesEffect(s.(list := next), ComputeChanges(s.list, next));
    }
  }

  /**
   * Once the role is settled, `_updateList` installs the next list and
   * reports the changes between the old list and the next: one record per
   * change, each exit emitted, each enter queued or parked by reachability,
   * and nothing else.
   */
  lemma UpdateListReports(s: State, next: GuestList)
    requires !Negotiating(s)
    ensures var r := UpdateList(s, next);
      var changes := ComputeChanges(s.list, next);
      && r.list == next && r.role == s.role
      && Appends(s, r) && OnePerChange(s, r, changes) && RoutesAll(s, r, changes)
      && OnlyExits(s, r, changes) && OnlyQueued(s, r, changes) && OnlyParked(s, r, changes)
  {
    InformChangesEffect(s.(list := next), ComputeChanges(s.list, next));
  }

  /**
   * Role changes are limited: `unknown` is never re-entered, a host is never
   * demoted, `guest` is only reached from `unknown` (negotiation), and the
   * heartbeat is running exactly when it already was or the peer just
   * became host.
   */
  lemma RoleTransitions(s: State, input: Input)
    requires Step(s, input).Success?
    ensures var r := Step(s, input).value;
      && (s.role != Unknown ==> r.role != Unknown)
      && (s.role == Host ==> r.role == Host)
      && (r.role == Guest ==> s.role == Guest || s.role == Unknown)
      && (r.heartbeat <==> s.heartbeat || (r.role == Host && s.role != Host))
  {
    var s1: State;
    match input {
      case PeerJoined(id) =>
        var t := s.(transport := Rtc.OnPeer(s.transport, id).0);
        s1 := OnConnect(t, id);
        OnConnectRole(t, id);
      case PeerStream(id, stream) =>
        s1 := OnStream(s, id, stream);
      case PeerData(data) =>
        var m := Rtc.OnData(data).value.message;
        s1 := OnMessage(s, m).value;
        OnMessageRole(s, m);
      case PeerLeft(id) =>
        var t := s.(transport := Rtc.OnClose(s.transport, id).0);
        s1 := OnClose(t, id);
        OnCloseRole(t, id);
      case SendContent(target, content) =>
        s1 := Send(s, target, content);
      case HeartbeatTick =>
        s1 := Heartbeat(s);
    }
    assert Step(s, input).value == Drain(s1);
    assert RoleChange(s, s1);
  }

  /** The heartbeat timer runs exactly while this peer is the host. */
  predicate HeartbeatWhileHost(s: State) {
    s.heartbeat <==> s.role == Host
  }

  /** `connect()` starts with no role and no heartbeat. */
  lemma ConnectWithoutHeartbeat(transport: Rtc.Transport, enterTime: int)
    ensures HeartbeatWhileHost(Connect(transport, enterTime))
    ensures Heartbeat(Connect(transport, enterTime)) == Connect(transport, enterTime)
  {
  }

  /** Every step keeps the heartbeat running exactly while this peer is the host. */
  lemma StepKeepsHeartbeatWhileHost(s: State, input: Input)
    requires HeartbeatWhileHost(s) && Step(s, input).Success?
    ensures HeartbeatWhileHost(Step(s, input).value)
  {
    RoleTransitions(s, input);
  }

  /**
   * Under that invariant a timer tick rebroadcasts the list exactly when
   * this peer is the host, and otherwise sends nothing.
   */
  lemma HeartbeatTickWhileHost(s: State)
    requires HeartbeatWhileHost(s)
    ensures Step(s, HeartbeatTick).Success?
    ensures s.jobs == [] && s.role == Host ==>
      Step(s, HeartbeatTick).value.sent == s.sent + Rtc.Broadcast(s.transport, ListMessage(s.list))
    ensures s.jobs == [] && s.role != Host ==> Step(s, HeartbeatTick).value == s
  {
  }

  /** Role and heartbeat as they were. */
  predicate SameRole(s: State, r: State) {
    r.role == s.role && r.heartbeat == s.heartbeat
  }

  /** The role changes a step may make, and the heartbeat they start. */
  predicate RoleChange(s: State, r: State) {
    && (s.role != Unknown ==> r.role != Unknown)
    && (s.role == Host ==> r.role == Host)
    && (r.role == Guest ==> s.role == Guest || s.role == Unknown)
    && (r.heartbeat <==> s.heartbeat || (r.role == Host && s.role != Host))
  }

  lemma OnListRole(s: State, message: map<string, Json>)
    requires OnList(s, message).Success?
    ensures RoleChange(s, OnList(s, message).value)
    ensures !Negotiating(s) ==> SameRole(s, OnList(s, message).value)
  {
  }

  lemma OnConnectRole(s: State, id: string)
    ensures SameRole(s, OnConnect(s, id))
  {
    if s.role != Guest {
      var next := Add(Copy(s.list), id);
      assert SameRole(s, UpdateList(s, next));
    }
  }

  lemma OnMessageRole(s: State, message: map<string, Json>)
    requires OnMessage(s, message).Success?
    ensures RoleChange(s, OnMessage(s, message).value)
  {
    if TypeName(message) == "list" {
      OnListRole(s, message);
    }
  }

  lemma OnCloseRole(s: State, id: string)
    ensures RoleChange(s, OnClose(s, id))
  {
  }

  /**
   * A list message is ignored, leaving the state unchanged, when the role is
   * settled and the sender is not the host of the current list, or when it
   * carries the current list itself.
   */
  lemma IgnoredLists(s: State, message: map<string, Json>)
    requires
      || (!Negotiating(s) && !IsHostFrom(s.list, Field(message, "from")))
      || Deserialize(JObj(message)) == Some(s.list)
    ensures OnList(s, message) == Success(s)
  {
    EqualsIsEquality(s.list, s.list);
  }

  /** The same, for a whole step in which such a list arrives as inbound data. */
  lemma IgnoredListStep(s: State, message: map<string, Json>)
    requires s.jobs == []
    requires TypeName(message) == "list"
    requires
      || (!Negotiating(s) && !IsHostFrom(s.list, Field(message, "from")))
      || Deserialize(JObj(message)) == Some(s.list)
    ensures Step(s, PeerData(Some(JObj(message)))) == Success(s)
  {
    IgnoredLists(s, message);
  }

  /**
   * The type is dispatched on its text: a string, or an array holding just
   * that string at any depth, reaches the same handler.
   */
  lemma WrappedTypeDispatches(s: State, message: map<string, Json>, t: string, depth: nat)
    requires Field(message, "type") == Some(Wrap(JStr(t), depth))
    ensures t == "list" ==> OnMessage(s, message) == OnList(s, message)
    ensures t == "content" ==> OnMessage(s, message) == Success(OnContent(s, message))
    ensures NamesTransportHandler(t) ==> OnMessage(s, message) == Failure(Unmodelled("_on" + t))
  {
    TextOfWrapped(t, depth);
  }

  /**
   * A number, a boolean, an object or `null` as the type names no handler:
   * the message is dropped and the state is unchanged.
   */
  lemma ScalarTypesDropped(s: State, message: map<string, Json>)
    requires Field(message, "type").Some?
    requires var t := Field(message, "type").value; t.JNum? || t.JBool? || t.JObj? || t.JNull?
    ensures OnMessage(s, message) == Success(s)
  {
  }

  /**
   * Once the role is settled, a list from the current host that differs
   * from the local one replaces it, and its differences are reported
   * against the local list.
   */
  lemma HostListAdopted(s: State, message: map<string, Json>, remote: GuestList)
    requires !Negotiating(s) && IsHostFrom(s.list, Field(message, "from"))
    requires Deserialize(JObj(message)) == Some(remote) && remote != s.list
    ensures OnList(s, message) == Success(InformChanges(s.(list := remote), ComputeChanges(s.list, remote)))
    ensures OnList(s, message).value.list == remote && OnList(s, message).value.role == s.role
  {
    EqualsIsEquality(s.list, remote);
  }

  /**
   * Negotiation: a different remote list with the same timestamp aborts;
   * otherwise the strictly older list wins, the peer becomes host when its
   * own list wins and guest otherwise, and, because the local list is
   * cleared first, every slot of the winner is reported as an enter at its
   * 1-based position.
   */
  lemma NegotiationOutcome(s: State, message: map<string, Json>, remote: GuestList)
    requires Negotiating(s)
    requires Deserialize(JObj(message)) == Some(remote) && remote != s.list
    ensures remote.timestamp == s.list.timestamp ==> OnList(s, message) == Failure(EqualCosts)
    ensures remote.timestamp != s.list.timestamp ==>
      var winner := if remote.timestamp < s.list.timestamp then remote else s.list;
      var role := if remote.timestamp < s.list.timestamp then Guest else Host;
      && OnList(s, message) == Success(InformChanges(SetRole(s, role).(list := winner), EntersFrom(winner, 0)))
      && OnList(s, message).value.role == role
      && OnList(s, message).value.list == winner
      && s.events + [Upgrade(role)] <= OnList(s, message).value.events
  {
    EqualsIsEquality(s.list, remote);
    if remote.timestamp != s.list.timestamp {
      var winner := if remote.timestamp < s.list.timestamp then remote else s.list;
      var role := if remote.timestamp < s.list.timestamp then Guest else Host;
      EqualsIsEquality(winner, s.list);
      var s2 := SetRole(s, role);
      ChangesFromEmptyAreAllEnters(Clear(s2.list), winner);
      InformChangesEffect(s2.(list := winner), EntersFrom(winner, 0));
      var r := InformChanges(s2.(list := winner), EntersFrom(winner, 0));
      assert s2.events == s.events + [Upgrade(role)];
      assert s2.events <= r.events;
    }
  }

  /** Releasing from a queue extended at its end releases what the prefix released. */
  lemma ReleaseExtended(q: seq<Waiter>, q2: seq<Waiter>, target: Option<string>)
    requires q <= q2
    ensures Release(q, target).1 <= Release(q2, target).1
    ensures forall w :: w in q && w.id == target ==> w.job in Release(q2, target).0
    ensures forall w :: w in Release(q2, target).1 ==> w.id != target
  {
    assert q2 == q + q2[|q|..];
    ReleaseConcat(q, q2[|q|..], target);
    ReleaseMembers(q, target);
    ReleaseMembers(q2, target);
  }

  /** The bookkeeping `_onConnect` does before confirming the connection. */
  lemma OnConnectList(s: State, id: string)
    ensures var s1 := if s.role != Guest then BroadcastList(UpdateList(s, Add(Copy(s.list), id))) else s;
      && Appends(s, s1) && s1.role == s.role
      && (s.role != Guest ==> s1.list == Add(s.list, id) && s1.sent == s.sent + Rtc.Broadcast(s.transport, ListMessage(s1.list)))
      && (s.role == Guest ==> s1 == s)
  {
    if s.role != Guest {
      UpdateListAppends(s, Add(Copy(s.list), id));
    }
  }

  /**
   * `_onConnect(id)`: a non-guest adds the id (never twice) and broadcasts
   * the new list, a guest leaves its list alone and sends nothing; in every
   * role all connection waiters for the id are released and the others
   * stay queued in their order.
   */
  lemma OnConnectEffect(s: State, id: string)
    ensures var r := OnConnect(s, id);
      && r.role == s.role
      && (s.role != Guest ==> r.list == Add(s.list, id) && r.sent == s.sent + Rtc.Broadcast(s.transport, ListMessage(r.list)))
      && (s.role == Guest ==> r.list == s.list && r.sent == s.sent)
      && Release(s.connectionWaiters, Some(id)).1 <= r.connectionWaiters
      && (forall w :: w in r.connectionWaiters ==> w.id != Some(id))
      && (forall w :: w in s.connectionWaiters && w.id == Some(id) ==> w.job in r.jobs)
  {
    OnConnectList(s, id);
    var s1 := if s.role != Guest then BroadcastList(UpdateList(s, Add(Copy(s.list), id))) else s;
    ReleaseExtended(s.connectionWaiters, s1.connectionWaiters, Some(id));
  }

  /**
   * `_onClose(id)`: a host tombstones the leaver and broadcasts; a guest
   * tombstones only a leaving host, and then becomes host exactly when it
   * was next in line, which makes it the host of the new list, and only then
   * broadcasts; any other departure leaves a guest untouched; a peer still
   * negotiating keeps its list and broadcasts it.
   */
  lemma OnCloseEffect(s: State, id: string)
    ensures var r := OnClose(s, id);
      && (s.role == Host ==>
            r.role == Host && r.list == Remove(s.list, id) &&
            r.sent == s.sent + Rtc.Broadcast(s.transport, ListMessage(r.list)))
      && (s.role == Guest && IsHost(s.list, id) ==>
            && r.list == Remove(s.list, id)
            && r.role != Unknown
            && (r.role == Host <==> NextHost(s.list) == Some(Me(s)))
            && (r.role == Host <==> HostOf(r.list) == Some(Me(s)))
            && (r.role == Host ==> r.heartbeat && r.sent == s.sent + Rtc.Broadcast(s.transport, ListMessage(r.list)))
            && (r.role == Guest ==> r.sent == s.sent))
      && (s.role == Guest && !IsHost(s.list, id) ==> r == s)
      && (s.role == Unknown ==> r == BroadcastList(s))
  {
    if s.role == Guest && IsHost(s.list, id) {
      RemoveHostYieldsNextHost(s.list);
    }
  }

  /**
   * Every frame of a list broadcast passes the receiver's framing check as a
   * `list` message from the sender, and decodes to the sender's list.
   */
  lemma ListMessageRoundTrip(t: Rtc.Transport, l: GuestList)
    ensures forall d :: d in Rtc.Broadcast(t, ListMessage(l)) ==>
      && Rtc.OnData(Some(d.data)).Success?
      && var m := Rtc.OnData(Some(d.data)).value.message;
         && Field(m, "type") == Some(JStr("list"))
         && Field(m, "from") == Some(JStr(t.me))
         && Deserialize(JObj(m)) == Some(l)
  {
    SerializeRoundTrip(l);
  }

  /** Every frame `send` produces carries the sender's id and the content message. */
  lemma ContentFrames(sender: State, target: string, content: Json)
    ensures forall d :: d in Send(sender, target, content).sent[|sender.sent|..] ==>
      d.data == JObj(Rtc.Stamp(sender.transport, ContentMessage(content)))
  {
    var out := Send(sender, target, content).sent[|sender.sent|..];
    forall d | d in out ensures d.data == JObj(Rtc.Stamp(sender.transport, ContentMessage(content))) {
      var k :| 0 <= k < |out| && out[k] == d;
    }
  }

  /**
   * Content sent by one peer reaches another as a `participantmessage`
   * event naming the sender and carrying the payload unchanged.
   */
  lemma ContentRoundTrip(sender: State, receiver: State, target: string, content: Json)
    ensures forall d :: d in Send(sender, target, content).sent[|sender.sent|..] ==>
      && Rtc.OnData(Some(d.data)).Success?
      && OnMessage(receiver, Rtc.OnData(Some(d.data)).value.message) ==
           Success(receiver.(events := receiver.events + [ParticipantMessage(Some(JStr(Me(sender))), Some(content))]))
  {
    ContentFrames(sender, target, content);
    var m := Rtc.Stamp(sender.transport, ContentMessage(content));
    assert Field(m, "type") == Some(JStr("content"));
    assert Field(m, "from") == Some(JStr(Me(sender)));
    assert Field(m, "content") == Some(content);
  }
}

=== FILE: rtc_interface.dfy ===
/**
 * The transport wrapper: bookkeeping of the directly connected peers of a
 * mesh, sender stamping on outgoing messages, fan-out to all peers, and
 * framing validation of inbound data. The mesh itself (signalling, WebRTC
 * peers, media) is outside the model; it only reports peers appearing and
 * disappearing, and hands over inbound data.
 */
module Rtc {
  import opened Base
  import opened Json

  /**
   * A transport after `connect()`: the local id and the keys of the peer map
   * in insertion order. Before `connect()` there is no transport at all,
   * which callers express as `Option<Transport>`.
   */
  datatype Transport = Transport(me: string, peers: seq<string>)

  /** One text frame handed to a peer connection: the JSON value it encodes. */
  datatype Delivery = Delivery(to: string, data: Json)

  /** Events the transport raises towards its listener. */
  datatype RtcEvent =
    | ConnectEvent(id: string)
    | StreamEvent(id: string, stream: nat)
    | MessageEvent(message: map<string, Json>)
    | CloseEvent(id: string)

  /** Why inbound data aborts the session. */
  datatype Panic =
    | NonJson          // the text does not parse as JSON
    | Malformed        // not an object, or no truthy `type`
    | NullMessage      // `null` parses; reading `.type` of it throws a TypeError

  /** `me`: undefined until `connect()` has run. */
  function Me(t: Option<Transport>): (r: Option<string>)
    ensures r.None? <==> t.None?
  {
    match t
    case None => None
    case Some(tr) => Some(tr.me)
  }

  /**
   * `connect()`: a fresh, empty peer map and an identity. The swarm takes
   * the id given at construction when it is truthy (`uuid || generated`);
   * a missing or empty id gives the id the swarm generates.
   */
  function Connect(uuid: Option<string>, generated: string): (t: Transport)
    ensures t.peers == []
    ensures uuid.Some? && uuid.value != "" ==> t.me == uuid.value
    ensures uuid.None? || uuid.value == "" ==> t.me == generated
  {
    Transport(if uuid.Some? && uuid.value != "" then uuid.value else generated, [])
  }

  /** `isConnected(id)`: the peer map holds the id. */
  predicate IsConnected(t: Transport, id: string) {
    id in t.peers
  }

  /** The object that goes on the wire: the message with `from` set to `me`. */
  function Stamp(t: Transport, msg: map<string, Json>): map<string, Json> {
    msg["from" := JStr(t.me)]
  }

  /** `send(destination, msg)`: one frame to a connected destination, nothing otherwise. */
  function Send(t: Transport, destination: string, msg: map<string, Json>): (out: seq<Delivery>)
    ensures IsConnected(t, destination) ==> out == [Delivery(destination, JObj(Stamp(t, msg)))]
    ensures !IsConnected(t, destination) ==> out == []
    ensures forall d :: d in out ==> JObj(Stamp(t, msg)) == d.data && d.data.fields["from"] == JStr(t.me)
  {
    if destination in t.peers then [Delivery(destination, JObj(Stamp(t, msg)))] else []
  }

  function SendEach(t: Transport, ids: seq<string>, msg: map<string, Json>): (out: seq<Delivery>)
    requires forall i :: 0 <= i < |ids| ==> IsConnected(t, ids[i])
    ensures |out| == |ids|
    ensures forall i :: 0 <= i < |ids| ==> out[i] == Delivery(ids[i], JObj(Stamp(t, msg)))
  {
    if |ids| == 0 then [] else Send(t, ids[0], msg) + SendEach(t, ids[1..], msg)
  }

  /** `broadcast(msg)`: `send` once to every peer of the map, in the map's order. */
  function Broadcast(t: Transport, msg: map<string, Json>): (out: seq<Delivery>)
    ensures |out| == |t.peers|
    ensures forall i :: 0 <= i < |t.peers| ==> out[i] == Delivery(t.peers[i], JObj(Stamp(t, msg)))
  {
    SendEach(t, t.peers, msg)
  }

  /**
   * The swarm's `peer` event: record the peer (a key already in the map
   * keeps its place) and raise `connect`.
   */
  function OnPeer(t: Transport, id: string): (r: (Transport, RtcEvent))
    ensures IsConnected(r.0, id) && r.1 == ConnectEvent(id)
    ensures forall other :: other != id ==> (IsConnected(r.0, other) <==> IsConnected(t, other))
    ensures Distinct(t.peers) ==> Distinct(r.0.peers)
    ensures r.0.me == t.me
  {
    (if id in t.peers then t else t.(peers := t.peers + [id]), ConnectEvent(id))
  }

  /** Deletes every occurrence of `id`, keeping the others in order. */
  function Without(ids: seq<string>, id: string): (r: seq<string>)
    ensures forall x :: x in r <==> x in ids && x != id
    ensures Distinct(ids) ==> Distinct(r)
  {
    if |ids| == 0 then []
    else
      var rest := Without(ids[1..], id);
      assert Distinct(ids) ==> ids[0] !in ids[1..];
      (if ids[0] == id then [] else [ids[0]]) + rest
  }

  /** A peer's `close`: forget the peer, then raise `close`. */
  function OnClose(t: Transport, id: string): (r: (Transport, RtcEvent))
    ensures !IsConnected(r.0, id) && r.1 == CloseEvent(id)
    ensures forall other :: other != id ==> (IsConnected(r.0, other) <==> IsConnected(t, other))
    ensures Distinct(t.peers) ==> Distinct(r.0.peers)
    ensures r.0.me == t.me
  {
    (t.(peers := Without(t.peers, id)), CloseEvent(id))
  }

  /** A peer's `stream`: raised unchanged. */
  function OnStream(id: string, stream: nat): RtcEvent {
    StreamEvent(id, stream)
  }

  /**
   * A peer's `data`: `None` is text that does not parse. A parsed object
   * with a truthy `type` is raised as a `message` event unchanged; `null`
   * makes the `.type` read throw; every other value panics.
   */
  function OnData(data: Option<Json>): (r: Result<RtcEvent, Panic>)
    ensures data.None? ==> r == Failure(NonJson)
    ensures r.Success? <==>
      data.Some? && data.value.JObj? && "type" in data.value.fields && Truthy(data.value.fields["type"])
    ensures r.Success? ==> r.value.MessageEvent? && JObj(r.value.message) == data.value
  {
    match data
    case None => Failure(NonJson)
    case Some(JNull) => Failure(NullMessage)
    case Some(JObj(fields)) =>
      if "type" in fields && Truthy(fields["type"]) then Success(MessageEvent(fields))
      else Failure(Malformed)
    case Some(_) => Failure(Malformed)
  }

  /** Peer-map changes reported by the mesh. */
  datatype Link = Up(id: string) | Down(id: string)

  /** The transport after a sequence of peer appearances and closes. */
  function ApplyLinks(t: Transport, links: seq<Link>): Transport
    decreases |links|
  {
    if |links| == 0 then t
    else
      var before := ApplyLinks(t, links[..|links| - 1]);
      match links[|links| - 1]
      case Up(id) => OnPeer(before, id).0
      case Down(id) => OnClose(before, id).0
  }

  /** The last event concerning `id` is a `peer` event, or there is none and it was connected. */
  predicate ConnectedAfter(wasConnected: bool, links: seq<Link>, id: string) {
    (exists i :: 0 <= i < |links| && links[i] == Up(id) &&
       forall j :: i < j < |links| ==> links[j] != Down(id))
    || (wasConnected && forall j :: 0 <= j < |links| ==> links[j] != Down(id))
  }

  /** A trace ending in an event for another id is judged by its prefix. */
  lemma ConnectedAfterOtherLink(w: bool, links: seq<Link>, id: string)
    requires |links| > 0 && links[|links| - 1].id != id
    ensures ConnectedAfter(w, links, id) <==> ConnectedAfter(w, links[..|links| - 1], id)
  {
    var n := |links| - 1;
    var init := links[..n];
    assert forall j :: 0 <= j < n ==> init[j] == links[j];
    if ConnectedAfter(w, init, id) && !(w && forall j :: 0 <= j < n ==> init[j] != Down(id)) {
      var i :| 0 <= i < n && init[i] == Up(id) && forall j :: i < j < n ==> init[j] != Down(id);
      assert links[i] == Up(id);
    }
    if ConnectedAfter(w, links, id) && !(w && forall j :: 0 <= j < |links| ==> links[j] != Down(id)) {
      var i :| 0 <= i < |links| && links[i] == Up(id) && forall j :: i < j < |links| ==> links[j] != Down(id);
      assert init[i] == Up(id);
    }
  }

  /**
   * `isConnected(id)` holds exactly from a peer event for the id until a
   * close of that id.
   */
  lemma {:induction false} ConnectedBetweenPeerAndClose(t: Transport, links: seq<Link>, id: string)
    ensures IsConnected(ApplyLinks(t, links), id) <==> ConnectedAfter(IsConnected(t, id), links, id)
    decreases |links|
  {
    if |links| > 0 {
      var n := |links| - 1;
      ConnectedBetweenPeerAndClose(t, links[..n], id);
      var w := IsConnected(t, id);
      if links[n] == Up(id) {
        assert ConnectedAfter(w, links, id);
      } else if links[n] == Down(id) {
        assert !ConnectedAfter(w, links, id);
      } else {
        ConnectedAfterOtherLink(w, links, id);
      }
    }
  }

  /** Peers arriving and leaving keep the peer map free of repeated keys. */
  lemma {:induction false} LinksKeepPeersDistinct(t: Transport, links: seq<Link>)
    requires Distinct(t.peers)
    ensures Distinct(ApplyLinks(t, links).peers)
    decreases |links|
  {
    if |links| > 0 {
      LinksKeepPeersDistinct(t, links[..|links| - 1]);
    }
  }
}

=== FILE: scene_tree.dfy ===
/**
 * The scene tree: applies batches of remote component updates to the
 * elements of a subtree. Each update names its kind, a selector for the
 * target element, a component (attribute) name and the new value.
 *
 * The subtree is modelled as the attributes of each element; the selector
 * engine (`querySelector` on the root) and the attribute-name check of
 * `setAttribute` are parameters, and either may throw.
 */
module SceneTrees {
  import opened Base

  /** The identity of an element under the root. */
  type Element = nat

  /** The attributes of every element of the subtree. */
  type Tree = map<Element, map<string, string>>

  /**
   * What `root.querySelector(selector)` does: find the first matching
   * element, find none, or throw a `SyntaxError` on a selector it cannot
   * parse.
   */
  datatype Match = Found(element: Element) | NoMatch | InvalidSelector

  /**
   * The DOM operations an update relies on: the selector engine, and the
   * attribute names `setAttribute` accepts (any other name, one that is not
   * an XML Name such as the empty string, throws `InvalidCharacterError`).
   */
  datatype Dom = Dom(select: string -> Match, acceptsName: string -> bool)

  datatype Update = Update(kind: string, target: string, componentName: string, newValue: string)

  /** The argument of `applyUpdates`: one update, or an array of them. */
  datatype Batch = One(update: Update) | Many(updates: seq<Update>)

  /**
   * What a call leaves behind: every update applied, or an exception thrown
   * by the update at index `at`, with the tree as it was when it was thrown.
   */
  datatype Outcome = Applied(tree: Tree) | Threw(tree: Tree, at: nat)

  /** The value of attribute `name` of element `e`. */
  function Attr(tree: Tree, e: Element, name: string): Option<string> {
    if e in tree && name in tree[e] then Some(tree[e][name]) else None
  }

  /** `toUpperCase` on one character, for the ASCII letters. */
  function ToUpper(c: char): char {
    if 'a' <= c <= 'z' then (c as int - 32) as char else c
  }

  /** `capitalize(str)`: reading the first character of an empty string throws. */
  function Capitalize(s: string): Option<string> {
    if |s| == 0 then None else Some([ToUpper(s[0])] + s[1..])
  }

  /** `this['_apply' + capitalize(type) + 'Update']` exists: only the components handler does. */
  predicate HasHandler(kind: string) {
    Capitalize(kind) == Some("Components")
  }

  /** The update kinds that reach `_applyComponentsUpdate` are exactly `components` and `Components`. */
  lemma HandledKinds(kind: string)
    ensures HasHandler(kind) <==> kind == "components" || kind == "Components"
  {
    var word := "Components";
    var lower := "components";
    assert lower[1..] == word[1..] && [ToUpper(lower[0])] + lower[1..] == word;
    assert [ToUpper(word[0])] + word[1..] == word;
    if HasHandler(kind) {
      var c := Capitalize(kind).value;
      assert c[1..] == kind[1..] && c[0] == ToUpper(kind[0]);
      assert kind[1..] == word[1..];
      assert kind[0] == 'c' || kind[0] == 'C';
      assert kind == [kind[0]] + word[1..];
    }
  }

  /** `element.setAttribute(name, value)`. */
  function SetAttribute(tree: Tree, e: Element, name: string, value: string): (r: Tree)
    ensures Attr(r, e, name) == Some(value)
    ensures forall f, a :: f != e || a != name ==> Attr(r, f, a) == Attr(tree, f, a)
  {
    tree[e := (if e in tree then tree[e] else map[])[name := value]]
  }

  /**
   * The update goes through: its kind has a handler, its selector parses,
   * and a matched element accepts the attribute name.
   */
  predicate Accepted(u: Update, dom: Dom) {
    && HasHandler(u.kind)
    && !dom.select(u.target).InvalidSelector?
    && (dom.select(u.target).Found? ==> dom.acceptsName(u.componentName))
  }

  /**
   * `_applyUpdate(update)`: an unknown kind throws (`None`), and so does a
   * selector `querySelector` rejects; a components update leaves the tree
   * alone when the selector finds no element, and otherwise sets the named
   * attribute of the element it finds, which throws for a name
   * `setAttribute` does not accept.
   */
  function ApplyUpdate(tree: Tree, u: Update, dom: Dom): (r: Option<Tree>)
    ensures r.None? <==>
      || !HasHandler(u.kind)
      || dom.select(u.target).InvalidSelector?
      || (dom.select(u.target).Found? && !dom.acceptsName(u.componentName))
    ensures r.Some? && dom.select(u.target).NoMatch? ==> r.value == tree
    ensures r.Some? && dom.select(u.target).Found? ==>
      && Attr(r.value, dom.select(u.target).element, u.componentName) == Some(u.newValue)
      && forall f, a :: f != dom.select(u.target).element || a != u.componentName ==> Attr(r.value, f, a) == Attr(tree, f, a)
  {
    if !HasHandler(u.kind) then None
    else
      match dom.select(u.target)
      case InvalidSelector => None
      case NoMatch => Some(tree)
      case Found(e) =>
        if dom.acceptsName(u.componentName) then Some(SetAttribute(tree, e, u.componentName, u.newValue)) else None
  }

  /** The index of a throw that happened `n` updates later in the batch. */
  function Later(o: Outcome, n: nat): Outcome {
    match o
    case Applied(t) => Applied(t)
    case Threw(t, i) => Threw(t, i + n)
  }

  /** `updates.forEach(update => this._applyUpdate(update))`. */
  function ApplyAll(tree: Tree, us: seq<Update>, dom: Dom): (r: Outcome)
    ensures r.Applied? <==> forall i :: 0 <= i < |us| ==> Accepted(us[i], dom)
    ensures r.Threw? ==> r.at < |us| && !Accepted(us[r.at], dom) && forall i :: 0 <= i < r.at ==> Accepted(us[i], dom)
    decreases |us|
  {
    if |us| == 0 then Applied(tree)
    else
      match ApplyUpdate(tree, us[0], dom)
      case None => Threw(tree, 0)
      case Some(t) =>
        assert forall i :: 0 < i < |us| ==> us[i] == us[1..][i - 1];
        Later(ApplyAll(t, us[1..], dom), 1)
  }

  /** `applyUpdates(updates)`: a single update is handled as a one-element array. */
  function ApplyUpdates(tree: Tree, batch: Batch, dom: Dom): Outcome {
    match batch
    case One(u) => ApplyAll(tree, [u], dom)
    case Many(us) => ApplyAll(tree, us, dom)
  }

  /** Passing one update is the same as passing the array holding it. */
  lemma OneIsBatchOfOne(tree: Tree, u: Update, dom: Dom)
    ensures ApplyUpdates(tree, One(u), dom) == ApplyUpdates(tree, Many([u]), dom)
    ensures ApplyUpdates(tree, One(u), dom) ==
      match ApplyUpdate(tree, u, dom)
      case None => Threw(tree, 0)
      case Some(t) => Applied(t)
  {
    assert [u][0] == u && [u][1..] == [];
    match ApplyUpdate(tree, u, dom)
    case None =>
    case Some(t) =>
      assert ApplyAll(t, [], dom) == Applied(t);
  }

  /**
   * Updates are applied in order: a batch `a + b` is `a`, then, unless `a`
   * threw, `b` on the tree `a` left, with `b`'s throw index shifted past `a`.
   */
  lemma {:induction false} ApplyInOrder(tree: Tree, a: seq<Update>, b: seq<Update>, dom: Dom)
    ensures ApplyAll(tree, a + b, dom) ==
      match ApplyAll(tree, a, dom)
      case Threw(t, i) => Threw(t, i)
      case Applied(t) => Later(ApplyAll(t, b, dom), |a|)
    decreases |a|
  {
    if |a| == 0 {
      assert a + b == b;
      LaterZero(ApplyAll(tree, b, dom));
    } else {
      assert (a + b)[0] == a[0] && (a + b)[1..] == a[1..] + b;
      match ApplyUpdate(tree, a[0], dom)
      case None =>
      case Some(t) =>
        ApplyInOrder(t, a[1..], b, dom);
        match ApplyAll(t, a[1..], dom)
        case Threw(t1, i) =>
        case Applied(t1) =>
          LaterTwice(ApplyAll(t1, b, dom), |a| - 1, 1);
    }
  }

  lemma LaterZero(o: Outcome)
    ensures Later(o, 0) == o
  {
  }

  lemma LaterTwice(o: Outcome, m: nat, n: nat)
    ensures Later(Later(o, m), n) == Later(o, m + n)
  {
  }

  /**
   * A throw keeps the updates before it and drops the rest: the tree left
   * behind is the tree after the updates before the thrower.
   */
  lemma ThrowKeepsEarlier(tree: Tree, us: seq<Update>, dom: Dom)
    requires ApplyAll(tree, us, dom).Threw?
    ensures var o := ApplyAll(tree, us, dom);
      ApplyAll(tree, us[..o.at], dom) == Applied(o.tree)
  {
    var o := ApplyAll(tree, us, dom);
    var i := o.at;
    assert us == us[..i] + us[i..];
    ApplyInOrder(tree, us[..i], us[i..], dom);
    assert ApplyAll(tree, us[..i], dom).Applied?;
    var t := ApplyAll(tree, us[..i], dom).tree;
    assert us[i..][0] == us[i];
    assert ApplyAll(t, us[i..], dom) == Threw(t, 0);
  }

  /**
   * A components update whose selector matches an element but whose
   * attribute name `setAttribute` rejects throws, and the updates after it
   * in the batch are not applied.
   */
  lemma RejectedNameStopsBatch(tree: Tree, u: Update, rest: seq<Update>, dom: Dom)
    requires u.kind == "components" && dom.select(u.target).Found? && !dom.acceptsName(u.componentName)
    ensures ApplyAll(tree, [u] + rest, dom) == Threw(tree, 0)
  {
  }

  /** The last value written to attribute `name` of `e` by the batch, if any. */
  function LastWrite(us: seq<Update>, dom: Dom, e: Element, name: string): Option<string>
    decreases |us|
  {
    if |us| == 0 then None
    else
      var u := us[|us| - 1];
      if dom.select(u.target) == Found(e) && u.componentName == name then Some(u.newValue)
      else LastWrite(us[..|us| - 1], dom, e, name)
  }

  /**
   * A batch that does not throw leaves every attribute with the value of
   * the last update that targeted it, and every attribute no update
   * targeted as it was: nothing but the named attributes of the matched
   * elements changes.
   */
  lemma {:induction false} LastWriterWins(tree: Tree, us: seq<Update>, dom: Dom, e: Element, name: string)
    requires ApplyAll(tree, us, dom).Applied?
    ensures Attr(ApplyAll(tree, us, dom).tree, e, name) ==
      if LastWrite(us, dom, e, name).Some? then LastWrite(us, dom, e, name) else Attr(tree, e, name)
    decreases |us|
  {
    if |us| > 0 {
      var n := |us| - 1;
      var front := us[..n];
      assert us == front + [us[n]];
      ApplyInOrder(tree, front, [us[n]], dom);
      assert ApplyAll(tree, front, dom).Applied?;
      LastWriterWins(tree, front, dom, e, name);
      var t := ApplyAll(tree, front, dom).tree;
      assert [us[n]][1..] == [];
      assert ApplyAll(tree, us, dom).tree == ApplyUpdate(t, us[n], dom).value;
    }
  }
}
